=== FILE: README.md ===
# splunkts modular inputs — a Dafny model

This project models the core of the `@splunkts/modularinputs` package. That package is the
adapter a TypeScript program uses to act as a Splunk modular input. Splunk starts the script
in one of three modes:

- to describe its **scheme** (`--scheme`);
- to **validate** one input configuration (`--validate-arguments`, reading an `<items>` document);
- to **stream events** for every configured input (reading an `<input>` document and writing a
  `<stream>` of `<event>` elements).

The package contains two runners. The model covers both.

- **The class-based runner.** It is made of `ModularInputs.runScript`, the `EventWriter`, the
  `Event`, `Argument` and `Scheme` classes, `InputDefinition` and `ValidationDefinition`.
- **The object-based runner.** It is made of the `XmlStream` class, the `streamEvents` and
  `ExecuteModularInput` commands, and the `normalizeEvent`, `normalizeArgument`,
  `normalizeScheme`, `GetInputMeta` and `GetInputConf` functions.

What the model treats as given:

- **XML.** The XML parser and serializer are parameters. Parsed documents are typed records, and
  `Definition.Children` records whether a child element was missing, a lone object or an array.
  The JavaScript objects the encoders build are `map<string, JVal>` (`JsObject`).
- **Output.** The output stream is the sequence of chunks written to it: `EventWriter.Chunk` and
  `XmlStream.Chunk`.
- **Hooks.** The asynchronous hooks of a modular input (`start`, `streamEvents`, `end`,
  `validateInput`, `dispose`) are function-valued parameters, and their outcomes are
  `Base.Outcome`.
- **Time.** The time formatter works on a whole, non-negative number of milliseconds.

Modules follow the source files:

- `Base`, `Text` and `JsObject` are shared helpers, including `setProp`.
- `SplunkTime` is `GetSplunkFormattedTime`.
- `Event`, `Argument` and `Scheme` are the classes.
- `EventModel`, `ArgumentModel` and `SchemeModel` are the normalisers.
- `Definition` covers both definition files.
- `InputDefinition` and `ValidationDefinition` are the two parsers.
- `EventWriter` and `XmlStream` are the two output streams.
- `StreamEvents` and `Execute` are the commands.
- `ModularInput` is `runScript` and its input processing.

## Where the code is followed over its documentation

- **`requiredOnCreate`.** The `Argument` constructor defaults it to `false`
  (`argument.ts:72`). The field's documentation at `models/argument.ts:56` says arguments are
  required on create by default. `Argument.New` follows the constructor.
- **Event time.** `GetSplunkFormattedTime` divides its argument by 1000, so a number is read as
  milliseconds. The documentation of the object-based `Event.time` says seconds
  (`models/event.ts:21`), but the object-based runner passes `time` through unformatted.
  `SplunkTime` models the division: 1372187084424 formats as `"1372187084.424"`.
- **Missing metadata.** A metadata field absent from a definition document is copied as
  `undefined` and is not an error (`Definition.GetInputMeta`, `InputDefinition.Parse`).
- **Empty metadata elements.** Event metadata left out of the configuration is written as an
  empty element, not omitted (`event.ts:85-88`).

## Model

| member | source | states |
|---|---|---|
| Text.TrimEnd | packages/modularinputs/src/utils/xml_stream.ts:77 | the result is a prefix of the input, does not end in JavaScript whitespace, and only whitespace was removed |
| Text.TrimStart | packages/modularinputs/src/utils/xml_stream.ts:77 | the result is a suffix of the input, does not start with whitespace, and only whitespace was removed |
| JsObject.SetProp | packages/modularinputs/src/utils.ts:1-3 | the spread of `setProp(obj, key)` holds `key` exactly when `obj[key]` is defined, with that value, and no other key |
| JsObject.SpreadProps | packages/modularinputs/src/models/event.ts:51-55 | a chain of `...setProp` spreads holds exactly the listed keys that are defined, each with the source object's value |
| JsObject.Pick | packages/modularinputs/src/models/event.ts:48-57 | the normaliser shape: the fixed key always (even when undefined), each listed key iff defined, nothing else |
| JsObject.PickIdempotent | packages/modularinputs/src/models/event.ts:48-57 | applying the normaliser shape to its own result changes nothing |
| SplunkTime.DecimalValueOfString | packages/modularinputs/src/utils.ts:40 | the integer part `toFixed` prints denotes the number it was printed from |
| SplunkTime.StringOfDecimalValue | packages/modularinputs/src/utils.ts:40 | every canonical digit string is the printing of the number it denotes |
| SplunkTime.Pad3 | packages/modularinputs/src/utils.ts:40 | the three fractional digits of `toFixed(3)` denote the milliseconds below one second |
| SplunkTime.Pad3OfValue | packages/modularinputs/src/utils.ts:40 | every three-digit string is the padding of the value it denotes |
| SplunkTime.FormatMillis | packages/modularinputs/src/utils.ts:40 | `(ms / 1000).toFixed(3)`: a canonical whole-seconds part, a dot, and three digits; the parts denote `ms div 1000` and `ms mod 1000` |
| SplunkTime.GetSplunkFormattedTime | packages/modularinputs/src/utils.ts:29-41 | a number of milliseconds and a `Date` both format to seconds with three decimals that read back as the same instant |
| SplunkTime.FormatRoundTrip | packages/modularinputs/src/utils.ts:40 | parsing the formatted string gives the milliseconds back |
| SplunkTime.ParseRoundTrip | packages/modularinputs/src/utils.ts:40 | every canonical three-decimal string is the formatting of the milliseconds it denotes |
| SplunkTime.FormatInjectiveAndMonotone | packages/modularinputs/src/utils.ts:40 | distinct instants format differently, and the formatted values keep the order of the instants |
| SplunkTime.ExampleMillis | packages/modularinputs/src/common.ts:46-58 | 1372187084424 ms, as a number or as a `Date`, formats as `"1372187084.424"` |
| Event.New | packages/modularinputs/src/event.ts:55-65 | `done` and `unbroken` default to true and are false only when given as false; the other fields are copied |
| Event.OrEmpty | packages/modularinputs/src/event.ts:85-88 | a missing metadata field becomes the empty string, a present one its value |
| Event.TimeField | packages/modularinputs/src/event.ts:83 | the `time` entry is a string that reads back as the event's instant |
| Event.DataField | packages/modularinputs/src/event.ts:84 | a string payload goes through `JSON.stringify`, any other payload through `toString()` |
| Event.EventObject | packages/modularinputs/src/event.ts:80-89 | the object literal has exactly the eight fixed keys, each holding the value given for it, and no `done` |
| Event.ToXmlObject | packages/modularinputs/src/event.ts:79-94 | the object has the eight fixed keys always and `done` (an empty object) exactly when the event is done |
| Event.ToXmlObjectAttributes | packages/modularinputs/src/event.ts:81-84 | the stanza attribute is the stanza, `unbroken` is `"1"` or `"0"` by the flag, and `time` and `data` are the formatted time and payload |
| Event.ToXmlObjectMetadata | packages/modularinputs/src/event.ts:85-88 | host, index, source and sourcetype are always present, empty when not configured |
| Event.ConfigFragmentBits | packages/modularinputs/src/event.ts:55-94 | from the configuration to the wire: `done` appears unless `done: false`, `unbroken="0"` exactly for `unbroken: false`, and a default event is a complete record |
| EventModel.NormalizeEvent | packages/modularinputs/src/models/event.ts:48-57 | `data` always, each of host, index, source, sourcetype and time iff defined, and nothing else |
| EventModel.NormalizeEventIdempotent | packages/modularinputs/src/models/event.ts:48-57 | normalising an event twice is normalising it once |
| EventModel.NormalizeEventDropsExtras | packages/modularinputs/src/models/event.ts:48-57 | a property outside the six known ones never survives normalisation |
| Argument.WireName | packages/modularinputs/src/argument.ts:5-9 | each argument type is named by one of `BOOLEAN`, `NUMBER`, `STRING` |
| Argument.ParseWireName | packages/modularinputs/src/argument.ts:5-9 | a string names an argument type exactly when it is one of the three enum values |
| Argument.WireNameRoundTrip | packages/modularinputs/src/argument.ts:5-9 | the enum's names and members are in one-to-one correspondence |
| Argument.New | packages/modularinputs/src/argument.ts:66-73 | the type defaults to string and both `required` flags default to false; the rest is copied |
| Argument.ToXmlObject | packages/modularinputs/src/argument.ts:81-93 | name, type and both flags always; `description` and `validation` exactly when truthy, with their values |
| Argument.ToXmlObjectFixedEntries | packages/modularinputs/src/argument.ts:82-87 | the fixed entries carry the argument's own name, a type name that reads back as its type, and its flags |
| ArgumentModel.NormalizeArgument | packages/modularinputs/src/models/argument.ts:60-70 | the `@name` attribute always, each of the six optional properties iff defined, nothing else |
| ArgumentModel.NormalizeArgumentIdempotent | packages/modularinputs/src/models/argument.ts:60-70 | normalising an argument twice is normalising it once |
| ArgumentModel.NormalizeArgumentNoDefaults | packages/modularinputs/src/models/argument.ts:60-70 | no default is filled in for a missing `data_type`, and unknown properties are dropped |
| Scheme.ModeName | packages/modularinputs/src/scheme.ts:4-7 | the streaming mode is named `SIMPLE` or `XML`, `SIMPLE` exactly for simple mode |
| Scheme.New | packages/modularinputs/src/scheme.ts:41-51 | a new scheme has external validation on, one instance per stanza, XML streaming and no arguments |
| Scheme.AddArgument | packages/modularinputs/src/scheme.ts:57-61 | a present argument is appended after the existing ones; a missing one leaves the scheme unchanged |
| Scheme.ToXmlObject | packages/modularinputs/src/scheme.ts:67-77 | title, both flags and the mode always; the description exactly when truthy |
| Scheme.ToXmlObjectEntries | packages/modularinputs/src/scheme.ts:67-77 | the entries reflect the scheme's title, flags and mode, and the arguments do not change the object |
| Scheme.DefaultSchemeObject | packages/modularinputs/src/scheme.ts:41-77 | a fresh scheme with an argument reports external validation, multiple instances, XML mode and no description |
| SchemeModel.NormalizeScheme | packages/modularinputs/src/models/scheme.ts:47-59 | `title` always, the three optional properties iff defined, `streaming_mode` dropped, every argument normalised in place |
| SchemeModel.NormalizeSchemeIdempotent | packages/modularinputs/src/models/scheme.ts:47-59 | normalising a scheme twice is normalising it once, arguments included |
| EventWriter.New | packages/modularinputs/src/eventwriter.ts:16 | a new writer has written nothing and its header is pending |
| EventWriter.WriteEvent | packages/modularinputs/src/eventwriter.ts:31-44 | the header first when pending, then one event chunk on success; the earlier output is kept and no closing tag is written |
| EventWriter.WriteEventSerializes | packages/modularinputs/src/eventwriter.ts:36-43 | the call succeeds exactly when the event object serialises, and the last chunk is that serialisation |
| EventWriter.WriteXMLDocument | packages/modularinputs/src/eventwriter.ts:55-58 | the serialised document is appended without a header; a serializer failure writes nothing |
| EventWriter.Close | packages/modularinputs/src/eventwriter.ts:63-65 | `</stream>` is appended whatever the header flag, and the flag is unchanged |
| EventWriter.AppendPreserves | packages/modularinputs/src/eventwriter.ts:31-65 | each single write keeps the header invariant |
| EventWriter.StepPreserves | packages/modularinputs/src/eventwriter.ts:31-65 | each writer operation keeps the invariant: the flag is set iff the header was written, the header is written once, and it precedes every event |
| EventWriter.RunKeepsHeaderDiscipline | packages/modularinputs/src/eventwriter.ts:16-65 | any sequence of writer calls keeps that invariant |
| EventWriter.CloseBeforeAnyEvent | packages/modularinputs/src/eventwriter.ts:63-65 | closing a writer that wrote no event emits a lone `</stream>` |
| XmlStream.New | packages/modularinputs/src/utils/xml_stream.ts:25 | a new stream has no open tag and has written nothing |
| XmlStream.Open | packages/modularinputs/src/utils/xml_stream.ts:41-44 | the tag is pushed and its start tag written, with the attributes only when they are truthy |
| XmlStream.Close | packages/modularinputs/src/utils/xml_stream.ts:90-95 | without a tag it pops the innermost tag and writes its end tag, failing with "Nothing to close" on an empty stack; with a tag it writes that tag and does not pop |
| XmlStream.WriteObject | packages/modularinputs/src/utils/xml_stream.ts:55-58 | the serialised object is appended, or the call fails when the serializer throws |
| XmlStream.OperationsKeepNesting | packages/modularinputs/src/utils/xml_stream.ts:41-95 | open, close and write keep the output properly nested, with the tag stack equal to the elements left open |
| XmlStream.OpenKeepsNesting | packages/modularinputs/src/utils/xml_stream.ts:41-44 | opening keeps the output nested and in step with the stack |
| XmlStream.CloseKeepsNesting | packages/modularinputs/src/utils/xml_stream.ts:90-95 | closing the innermost element keeps the output nested and in step with the stack |
| XmlStream.WriteKeepsNesting | packages/modularinputs/src/utils/xml_stream.ts:55-58 | writing an object keeps the output nested and in step with the stack |
| XmlStream.ExplicitCloseDoesNotPop | packages/modularinputs/src/utils/xml_stream.ts:91 | closing by name leaves the element on the stack, so a later `close()` writes its end tag a second time |
| XmlStream.ConcatStep | packages/modularinputs/src/utils/xml_stream.ts:75 | each chunk extends the buffered text by itself |
| XmlStream.ReadUntil | packages/modularinputs/src/utils/xml_stream.ts:73-83 | the data handler stops at the first buffered text that completes the element, and no earlier prefix does |
| XmlStream.ReadObject | packages/modularinputs/src/utils/xml_stream.ts:67-85 | the result is the trimmed text at the first chunk after which it ends with the end tag; with no such chunk the read fails with `Receiving <tag> object.` |
| Definition.GetInputMeta | packages/modularinputs/src/models/definition.ts:45-52 | the four metadata fields of `<input>` are copied unchanged, missing ones as missing |
| Definition.CloneMeta | packages/modularinputs/src/definition.ts:27-34 | the four metadata fields of `<items>` are copied unchanged |
| Definition.NamesOf | packages/modularinputs/src/models/definition.ts:57-63 | the names the loops assign are exactly the names of the elements |
| Definition.Assign | packages/modularinputs/src/models/definition.ts:57-63 | assigning in document order: the keys become the old keys plus the element names, the last element of each name wins, and other keys keep their values |
| Definition.AssignStep | packages/modularinputs/src/models/definition.ts:57-63 | one more assignment keeps the contract of `Assign` |
| Definition.AssignSnoc | packages/modularinputs/src/models/definition.ts:57-63 | the loop unfolds at its last element |
| Definition.AssignConcat | packages/modularinputs/src/models/definition.ts:57-63 | running the loop over `xs` and then over `ys` is running it over `xs + ys` |
| Definition.AssignOne | packages/modularinputs/src/models/definition.ts:57-63 | a one-element loop is a single property assignment |
| Definition.ListValue | packages/modularinputs/src/models/definition.ts:60-63 | a `param_list` decodes to a list in every case: one `<value>` gives a one-element list, none gives the empty list |
| Definition.SingleValueBecomesScalar | packages/modularinputs/src/models/definition.ts:60-63 | as written, a `param_list` with one value is stored as a plain string, which differs from the one-element list |
| Definition.ListValueAgreesOnArrays | packages/modularinputs/src/models/definition.ts:60-63 | when the parser returns an array of values, the as-written and corrected decodings agree |
| Definition.DecodeStanza | packages/modularinputs/src/models/definition.ts:54-65 | the keys are the param and param_list names; the last param_list of a name gives a list of its values; the last param of a name not used by a list gives its text |
| Definition.EmptyStanzaDecodesEmpty | packages/modularinputs/src/models/definition.ts:56-61 | missing or empty children decode to the empty configuration |
| Definition.LoneChildIsOneElementList | packages/modularinputs/src/models/definition.ts:56-60 | a lone `param` or `param_list` object decodes like a one-element array |
| Definition.ListOverridesParam | packages/modularinputs/src/models/definition.ts:57-63 | a param_list wins over a param of the same name wherever the two occur |
| Definition.ExistsLast | packages/modularinputs/src/models/definition.ts:57-63 | every assigned name has a last element that assigns it |
| Definition.EncodeParams | packages/modularinputs/src/models/definition.ts:57-58 | the inverse direction for params: one `param` per scalar entry, holding that entry |
| Definition.EncodeLists | packages/modularinputs/src/models/definition.ts:61-62 | the inverse direction for lists: one `param_list` per list entry, whose values decode to that entry |
| Definition.DecodeEncodeScalar | packages/modularinputs/src/models/definition.ts:54-65 | a scalar entry survives encoding and decoding |
| Definition.DecodeEncodeList | packages/modularinputs/src/models/definition.ts:54-65 | a list entry survives encoding and decoding, order included |
| Definition.DecodeEncodeKeys | packages/modularinputs/src/models/definition.ts:54-65 | decoding an encoded stanza adds no key |
| Definition.DecodeEncode | packages/modularinputs/src/models/definition.ts:54-65 | decoding an encoded stanza gives the configuration back |
| Definition.SameEntries | packages/modularinputs/src/models/definition.ts:54-65 | two configurations with the same keys and values are equal |
| Definition.DecodeEncodeDecode | packages/modularinputs/src/models/definition.ts:54-65 | a decoded stanza is stable under another encode and decode |
| Definition.StanzaMap | packages/modularinputs/src/commands/streamevents.ts:11-14 | the stanza map holds exactly the stanza names, each mapped to the decoding of its last stanza, a lone stanza counting as one |
| Definition.StanzaMapOfLone | packages/modularinputs/src/commands/streamevents.ts:11-14 | a lone stanza gives a one-entry map |
| InputDefinition.New | packages/modularinputs/src/inputdefinition.ts:66-69 | a new definition has no inputs and empty metadata |
| InputDefinition.StanzaAsWritten | packages/modularinputs/src/inputdefinition.ts:89-95 | a stanza decodes as written exactly when none of its children arrived as a lone object, and then as `DecodeStanza` does |
| InputDefinition.InputsAsWrittenFails | packages/modularinputs/src/inputdefinition.ts:88-96 | the stanza loop throws exactly when some stanza has a lone `param` or `param_list` |
| InputDefinition.InputsAsWrittenValue | packages/modularinputs/src/inputdefinition.ts:88-96 | when the loop completes, its map is the corrected stanza map |
| InputDefinition.ParseAsWritten | packages/modularinputs/src/inputdefinition.ts:80-98 | parsing succeeds exactly when the stanzas arrived as an array with iterable children, and then agrees with `Parse`; no stanza and a lone stanza fail with their own TypeError |
| InputDefinition.Parse | packages/modularinputs/src/inputdefinition.ts:80-98 | metadata copied; one input per stanza name, holding its last stanza's decoded configuration |
| InputDefinition.LoneStanzaRejected | packages/modularinputs/src/inputdefinition.ts:88 | a definition with one input throws as written, while `Parse` gives that one input |
| InputDefinition.FourAssignments | packages/modularinputs/src/inputdefinition.ts:90-92 | a four-element loop is four property assignments in document order |
| InputDefinition.ExampleAaaDecodes | packages/modularinputs/src/inputdefinition.ts:11-16 | the first stanza of the documented example decodes to its four params as strings |
| InputDefinition.ExampleBbbDecodes | packages/modularinputs/src/inputdefinition.ts:17-30 | the second stanza of the documented example decodes to its four params and its two two-value lists |
| InputDefinition.ExampleBbbParams | packages/modularinputs/src/inputdefinition.ts:18-21 | the four params of the second documented stanza, assigned in order |
| InputDefinition.ExampleBbbLists | packages/modularinputs/src/inputdefinition.ts:22-29 | its two `param_list`s, assigned after the params, each a two-element list in document order |
| InputDefinition.ExampleAccepted | packages/modularinputs/src/inputdefinition.ts:80-98 | the written parser accepts the documented example, whose stanzas and children arrive as arrays, and agrees with `Parse` on it |
| InputDefinition.ExampleInputs | packages/modularinputs/src/inputdefinition.ts:88-96 | the documented example gives exactly its two inputs, each with its own decoded stanza |
| InputDefinition.DocumentedExample | packages/modularinputs/src/inputdefinition.ts:4-32 | the `<input>` document of the `@example` parses, as written, to its four metadata fields and its two inputs with every parameter value |
| ValidationDefinition.New | packages/modularinputs/src/validationdefinition.ts:41-44 | a new definition has no parameters, no name and empty metadata |
| ValidationDefinition.Parse | packages/modularinputs/src/validationdefinition.ts:55-62 | metadata cloned, the name taken from the item, the parameters decoded from its params and param_lists |
| ValidationDefinition.ValidationIsSingleInstanceBundle | packages/modularinputs/src/validationdefinition.ts:55-62 | an `<items>` request decodes like an `<input>` document holding just that stanza |
| StreamEvents.FragmentEvent | packages/modularinputs/src/commands/streamevents.ts:19-26 | the normalised event with `@unbroken` 1 for a fragment and 0 otherwise, `done` (null) only on the last fragment, and the stanza attribute; every other entry is the normalised event's |
| StreamEvents.Documents | packages/modularinputs/src/commands/streamevents.ts:27 | one `{event}` document per writer call, in order |
| StreamEvents.WriteAll | packages/modularinputs/src/commands/streamevents.ts:17-33 | the writes keep the tag stack and append only objects; the session completes iff every document serialises, and a failure ends it |
| StreamEvents.StanzaMapAsWritten | packages/modularinputs/src/commands/streamevents.ts:11-14 | `reduce` works only on an array, and there it builds the corrected stanza map; without stanzas it fails reading `reduce` of undefined, and on a lone stanza because `reduce` is not a function |
| StreamEvents.LoneStanzaBreaksReduce | packages/modularinputs/src/commands/streamevents.ts:11-14 | a definition with one stanza fails as written with "reduce is not a function", while the corrected map has that input |
| StreamEvents.OpenAndWrite | packages/modularinputs/src/commands/streamevents.ts:16-33 | `<stream>` is opened, then only objects are written; success needs the session's success and every write |
| StreamEvents.RunSession | packages/modularinputs/src/commands/streamevents.ts:16-34 | the output is `<stream>`, the objects, `</stream>`, with the closing written even when the session fails |
| StreamEvents.StreamEvents | packages/modularinputs/src/commands/streamevents.ts:8-35 | a read failure writes nothing; a document whose stanzas are not an array fails in `reduce` before `<stream>` and writes nothing, with "Cannot read properties of undefined" for none and "reduce is not a function" for one; otherwise the command is its corrected form |
| StreamEvents.StreamEventsCorrected | packages/modularinputs/src/commands/streamevents.ts:8-35 | with a lone stanza read as a one-element list: every readable document yields `<stream>` first and `</stream>` last, with the earlier output and the tag stack kept |
| StreamEvents.LoneStanzaStreamsNothing | packages/modularinputs/src/commands/streamevents.ts:11-16 | one configured input: the command fails and writes nothing, while the corrected command streams that one input |
| StreamEvents.StreamEventsKeepsNesting | packages/modularinputs/src/commands/streamevents.ts:8-35 | both the command and its corrected form keep a properly nested output properly nested |
| StreamEvents.WriteAllKeepsNesting | packages/modularinputs/src/commands/streamevents.ts:27 | the writes keep the output nested |
| Execute.StreamWithoutClose | packages/modularinputs/src/commands/execute.ts:5-32 | a read failure, or stanzas that are not an array, writes nothing and fails with the same TypeError as the shared command; otherwise `<stream>` is opened, stays on the tag stack, and no end tag is ever written |
| Execute.StreamWithoutCloseMissesEndTag | packages/modularinputs/src/commands/execute.ts:5-32 | once `<stream>` is opened, the shared command's output is this one's plus `</stream>`, with the same outcome; before that, the two fail alike and write nothing |
| Execute.ValidateArguments | packages/modularinputs/src/commands/execute.ts:56-72 | a read failure writes nothing; without `validateInput` nothing happens; a rejection writes the error document when it serialises and is rethrown |
| Execute.SelectMode | packages/modularinputs/src/commands/execute.ts:44-50 | `--scheme` wins, then `--validate-arguments`, otherwise events are streamed |
| Execute.RunMode | packages/modularinputs/src/commands/execute.ts:44-50 | in scheme mode the `{scheme}` document is written exactly when it serialises |
| Execute.Run | packages/modularinputs/src/commands/execute.ts:40-54 | a failed `create` ends the command; otherwise the branch runs and a rejecting `dispose` replaces its outcome |
| Execute.SchemeFlagWins | packages/modularinputs/src/commands/execute.ts:44-46 | with `--scheme` given, `--validate-arguments` changes nothing |
| ModularInput.Classify | packages/modularinputs/src/modularinput.ts:95-149 | one argument streams; otherwise the second argument, ignoring case, selects scheme or validation; anything else is invalid |
| ModularInput.FlagsIgnoreCase | packages/modularinputs/src/modularinput.ts:106 | the flags match in any letter case, and extra arguments after them are ignored |
| ModularInput.Join | packages/modularinputs/src/modularinput.ts:146 | `args.join()`: none gives the empty string, one gives it back, and two or more give the first, a comma, and the join of the rest |
| ModularInput.InputNames | packages/modularinputs/src/modularinput.ts:68 | `Object.keys` of the inputs: every stanza name, each once |
| ModularInput.WriteEvents | packages/modularinputs/src/modularinput.ts:64 | an input's events are appended after the existing output, none of them closes the stream, and the writes succeed exactly when every event serialises |
| ModularInput.AppendedWithoutClose | packages/modularinputs/src/modularinput.ts:64-68 | two appends without a closing tag make one append without a closing tag |
| ModularInput.EventsSerializeCons | packages/modularinputs/src/modularinput.ts:64 | all events serialise exactly when the first does and all the rest do |
| ModularInput.StreamInput | packages/modularinputs/src/modularinput.ts:64 | the `streamEvents` hook succeeds exactly when every event it writes serialises and the input's own script succeeds, and it appends without closing |
| ModularInput.ProcessInput | packages/modularinputs/src/modularinput.ts:61-66 | `start`, `streamEvents` and `end` are called in that order, a failure stops before the next hook, and the input succeeds exactly when all three hooks and every event write succeed |
| ModularInput.HooksOf | packages/modularinputs/src/modularinput.ts:61-68 | three hook calls per input: the calls at positions 3i to 3i+2 are `start`, `streamEvents` and `end` of input i |
| ModularInput.ProcessEach | packages/modularinputs/src/modularinput.ts:68-69 | the inputs are processed in order, nothing closes the stream, and the run succeeds exactly when every input succeeds, with all hooks called |
| ModularInput.AllSucceedCons | packages/modularinputs/src/modularinput.ts:68-69 | every input succeeds exactly when the first does and all the rest do |
| ModularInput.ProcessAllInputs | packages/modularinputs/src/modularinput.ts:67-75 | after the inputs, `</stream>` is written exactly once whether or not an input failed, and last when every input succeeded; a failure is rethrown, and the outcome is a success exactly when every input succeeds |
| ModularInput.RunStreaming | packages/modularinputs/src/modularinput.ts:95-104 | a read failure, or a document the written parser rejects (one stanza, none, or a lone child), settles `[e, 1]` with nothing written; status is 0 exactly when the document was accepted and every input succeeded, and then the run resolves with every hook called |
| ModularInput.RunInputs | packages/modularinputs/src/modularinput.ts:97-99 | after decoding: the stream is closed, with `</stream>` last on a successful run, and the run resolves with status 0 exactly when every input succeeds, otherwise rejects with status 1 |
| ModularInput.NamesOfInput | packages/modularinputs/src/modularinput.ts:68 | every input name `Object.keys` lists has a decoded configuration |
| ModularInput.RunStreamingCorrected | packages/modularinputs/src/modularinput.ts:95-104 | with lone elements read as one-element lists: every readable document closes the stream, `</stream>` being last on a successful run, and status 0 holds exactly when every input succeeds |
| ModularInput.RunScheme | packages/modularinputs/src/modularinput.ts:106-123 | always a rejection: `[null, 1]` without a scheme, `[null, 0]` with the scheme document written, `[e, 1]` when it cannot be serialised |
| ModularInput.RunValidation | packages/modularinputs/src/modularinput.ts:125-143 | accepted items settle `[undefined, 0]`; a read or validation failure writes the error document when possible and settles with status 1 |
| ModularInput.RunScript | packages/modularinputs/src/modularinput.ts:87-151 | the status is 0 or 1, a resolution always has status 0, status 0 with a rejection happens only in scheme mode, and invalid arguments reject with the message |
| ModularInput.WriteEventsKeepsDiscipline | packages/modularinputs/src/modularinput.ts:64 | writing an input's events keeps the writer's header invariant |
| ModularInput.ProcessEachKeepsDiscipline | packages/modularinputs/src/modularinput.ts:68-69 | processing the inputs keeps the header invariant |
| ModularInput.ProcessAllInputsKeepsDiscipline | packages/modularinputs/src/modularinput.ts:67-75 | processing and closing keep the header invariant |
| ModularInput.StreamingProcessesAll | packages/modularinputs/src/modularinput.ts:97-99 | the corrected run is `processAllInputs` over the decoded inputs in key order (first occurrence of each name); the written run equals it whenever the written parser accepts, and otherwise writes nothing and calls no hook |
| ModularInput.StreamingOutputShape | packages/modularinputs/src/modularinput.ts:95-104 | from a fresh writer, the output keeps the header discipline and closes the stream exactly when the document was read and accepted, otherwise it is empty; `</stream>` is the single, last chunk on a successful run |
| ModularInput.NoInputsLoneClose | packages/modularinputs/src/modularinput.ts:95-104 | a definition without stanzas: as written, `[e, 1]` with nothing written; corrected, a lone `</stream>` and a resolution |
| ModularInput.LoneInputNeverProcessed | packages/modularinputs/src/inputdefinition.ts:88 | a definition with exactly one stanza: as written, `[e, 1]`, nothing written and no hook called; corrected, that input is started first |

## Left out

- XML parsing and serialisation (`XMLSerializer`, `XMLParserOptions`): the parser's output is the typed records, and the serializer is a parameter that may fail.
- Stream I/O: writes to stdout always succeed in the model. `writeString` rejects with its own reject function (`e(e)`) on a write error, and that path is not modelled.
- The 30.5 s deadline of `readObject` and `Wait`: clocks are out of scope, so a read is given the chunks that arrive before the deadline.
- ModularInput.RunScheme: assumes `getScheme()` returns. It is called at `modularinput.ts:107` outside any `try`, so a throw there would leave the promise of `runScript` unsettled, with an unhandled rejection and no `[e, 1]`. The hook is an `Option<Scheme>`, so the model has no such outcome, and `ModularInput.RunScript`'s status 0 or 1 relies on it.
- ModularInput.InputNames: assumes stanza names are not array indices such as "7". Splunk sends `scheme://name`. `Object.keys` would list integer-like names first, in ascending numeric order, so the `map` at `modularinput.ts:68` would start those inputs first; `ModularInput.NamesOfInput` and `ModularInput.StreamingProcessesAll` share this assumption.
- InputDefinition.StanzaAsWritten: the TypeError text for a lone `param` or `param_list` object is a placeholder. V8 builds that text from the source expression, and only the failure itself is modelled.
- Concurrency: `Promise.all` over the inputs is modelled as running them one after another and stopping at the first failure. Interleavings of concurrent inputs are not modelled.
- ModularInput.ProcessAllInputs: states `</stream>` as the last chunk on every run, which the source gives only when every input succeeds. The `map` at `modularinput.ts:68` calls every input's `start` at once; on the first rejection `Promise.all` calls `close()` while the other inputs keep running, so their later `writeEvent` calls land after `</stream>` (and may write the `<stream>` header then). The same holds for `ModularInput.RunInputs`, `ModularInput.RunStreamingCorrected`, `ModularInput.RunStreaming` and `ModularInput.StreamingOutputShape`: on a failing run, "last" and "exactly once" hold only in the sequential model, and the remaining inputs' hooks are not all recorded.
- SplunkTime.GetSplunkFormattedTime: covers only a whole, non-negative number of milliseconds. String, ISO-date, fractional, negative and NaN inputs use floating point and `Date` parsing, which the model does not include.
- SplunkTime.FormatMillis: is exact for every input. `(ms / 1000).toFixed(3)` on a double gives the same digits only while the seconds value stays below 2^43. Above that, a double's spacing exceeds a millisecond, and that rounding is not modelled.
- `JSON.stringify` of a string payload and `toString()` of another payload are left uninterpreted: the first is a parameter, the second a given string.
- An event whose `data` is undefined makes `toXmlObject` throw; event data is always present in the model.
- `ModularInputs.service()`: it builds a client for the Splunk REST API, which is outside the model.
- The command-line entry point (`index.ts`), the loggers, `IsNumeric` and the example input: they are I/O or not part of the core.
- `setup` and `teardown` are never called by `runScript`, so the model has no step for them.
- Key order of JavaScript objects: objects are maps, so property order on the wire is not modelled.
- `inputStream.resume()` and the TTY check in `runScript` are I/O.
- `init` of the object-based input and the logger calls in the commands: the metadata and stanza map passed to `init` are passed to the session parameter instead.
- ModularInput.WriteEvents: states only the shape of the output (appended events, no closing tag, the header flag). The chunks themselves are stated by `EventWriter.WriteEvent`.
- ModularInput.WriteEvents: assumes the input's own `streamEvents` lets a failing `writeEvent` propagate. An input that catches the error and goes on writing is not modelled.
- StreamEvents.WriteAll: assumes the input's `processAllInputs` lets an error rethrown by the writer callback propagate. An input that catches it and goes on is not modelled.
- ModularInput.RunValidation: carries the rejected error's message, not the error object.
- InputDefinition.ParseAsWritten: for its `param_list` values it uses the corrected decoding of Finding B, so it shows only the failure of Finding C.
- Definition.DecodeStanza: decodes a `param_list` with the corrected `ListValue` of Finding B. The source stores `param.value` raw (`models/definition.ts:62`, `definition.ts:48`), so one `<value>` gives a plain string and none gives `undefined`; `Definition.ListValueAsWritten` models that, but the decoders do not use it. Every member that decodes a stanza inherits this: `InputDefinition.ParseAsWritten`, `StreamEvents.StreamEvents`, `Execute.StreamWithoutClose` and `ModularInput.RunStreaming`.
- ValidationDefinition.Parse: decodes its item's `param_list` values with the corrected `ListValue`, not the raw `param.value` of `definition.ts:48`, for the same reason.
- Execute.ValidateArguments: hands the hook the stanza decoded with the corrected `ListValue`, not the raw `param.value` of `models/definition.ts:62`.
- ModularInput.RunValidation: validates the definition decoded by `ValidationDefinition.Parse`, so the same `param_list` difference applies.
- Definition.ParamXml: `text` is a string. The parser turns numeric text into a number (`<param name="disabled">0</param>` in the documented example, and numeric metadata such as the session key) and leaves `#text` undefined for an empty `<param/>`; neither is represented, and such values are kept as their strings.
- Execute.Run: `console.log("streaming events")` (`commands/execute.ts:41`) writes a line to stdout before `create`, in every mode. Without `--out`, stdout is also the output of the `XmlStream` (`index.ts:21`), so that line precedes the `{scheme}` document or `<stream>`. The model's output holds only the stream's own writes.

## Findings

The entry points follow the code as written: `ModularInput.RunStreaming` uses `InputDefinition.ParseAsWritten`, and `StreamEvents.StreamEvents` and `Execute.StreamWithoutClose` use `StreamEvents.StanzaMapAsWritten`. The corrected pipelines are `ModularInput.RunStreamingCorrected` and `StreamEvents.StreamEventsCorrected`, and each entry point is proved equal to its corrected form whenever the written parser accepts the document.

| source | as written | input that shows it | evidently intended | confidence | as-written member | corrected member |
|---|---|---|---|---|---|---|
| packages/modularinputs/src/commands/streamevents.ts:11-14 | `def.configuration.stanza.reduce(...)` assumes an array. The parser returns a lone object when there is one `<stanza>` and nothing when there are none, so `reduce` throws a TypeError. `commands/execute.ts:8-11` has the same code. | an `<input>` document configuring exactly one input | a lone stanza read as a one-element list, as `GetInputConf` does for params | not executed | StreamEvents.LoneStanzaBreaksReduce | Definition.StanzaMap |
| packages/modularinputs/src/models/definition.ts:60-63 | `param.value` is stored as the parser returned it, so a `param_list` with one `<value>` becomes a plain string and one with no value becomes `undefined` | `<param_list name="hosts"><value>a</value></param_list>` | the list `["a"]`, as the `string[]` type of a list parameter promises | not executed | Definition.SingleValueBecomesScalar | Definition.ListValue |
| packages/modularinputs/src/inputdefinition.ts:88-96 | `for..of` iterates `configuration.stanza`, `stanza.param` and `stanza.param_list` directly, and throws when any of them is a lone object | an `<input>` document with one stanza, or a stanza with one param | lone children read as one-element lists, as `GetParameters` does | not executed | InputDefinition.LoneStanzaRejected | InputDefinition.Parse |

=== FILE: argument.dfy ===
/** The `Argument` class (argument.ts): one `<arg>` of a scheme's endpoint. */
module Argument {
  import opened Base
  import opened JsObject

  /** `ArgumentType`; `WireName` is the string value of each enum member. */
  datatype ArgumentType = BooleanType | NumberType | StringType

  function WireName(t: ArgumentType): (r: string)
    ensures r in {"BOOLEAN", "NUMBER", "STRING"}
  {
    match t
    case BooleanType => "BOOLEAN"
    case NumberType => "NUMBER"
    case StringType => "STRING"
  }

  /** The inverse of `WireName`: the member whose value a `data_type` string is, if any. */
  function ParseWireName(s: string): (r: Option<ArgumentType>)
    ensures r.Some? <==> s in {"BOOLEAN", "NUMBER", "STRING"}
  {
    if s == "BOOLEAN" then Some(BooleanType)
    else if s == "NUMBER" then Some(NumberType)
    else if s == "STRING" then Some(StringType)
    else None
  }

  /** Every member is named by a distinct string, and each name reads back as its member. */
  lemma WireNameRoundTrip(t: ArgumentType, s: string)
    ensures ParseWireName(WireName(t)) == Some(t)
    ensures ParseWireName(s) == Some(t) ==> WireName(t) == s
  {
  }

  /** `ArgumentConfig`: optional fields are `None` when left out. */
  datatype ArgumentConfig = ArgumentConfig(
    name: string,
    description: Option<string>,
    validation: Option<string>,
    dataType: Option<ArgumentType>,
    requiredOnEdit: Option<bool>,
    requiredOnCreate: Option<bool>)

  datatype Argument = Argument(
    name: string,
    description: Option<string>,
    validation: Option<string>,
    dataType: ArgumentType,
    requiredOnEdit: bool,
    requiredOnCreate: bool)

  /** `new Argument(config)`: a string argument, required neither on create nor on edit, unless told otherwise. */
  function New(c: ArgumentConfig): (a: Argument)
    ensures a.dataType == StringType <==> c.dataType.None? || c.dataType == Some(StringType)
    ensures c.dataType.Some? ==> a.dataType == c.dataType.value
    ensures a.requiredOnEdit <==> c.requiredOnEdit == Some(true)
    ensures a.requiredOnCreate <==> c.requiredOnCreate == Some(true)
    ensures a.name == c.name && a.description == c.description && a.validation == c.validation
  {
    Argument(c.name, c.description, c.validation, c.dataType.GetOr(StringType),
             c.requiredOnEdit.GetOr(false), c.requiredOnCreate.GetOr(false))
  }

  /** A JavaScript string is truthy when it is present and not empty. */
  predicate Truthy(o: Option<string>) {
    o.Some? && o.value != ""
  }

  /**
   * `toXmlObject()`: the name attribute, the type and both `required_*` flags always;
   * `description` and `validation` only when truthy.
   */
  function ToXmlObject(a: Argument): (r: Obj)
    ensures forall k :: k in r <==>
      || k in {"@_name", "data_type", "required_on_create", "required_on_edit"}
      || (k == "description" && Truthy(a.description))
      || (k == "validation" && Truthy(a.validation))
    ensures Truthy(a.description) ==> r["description"] == Str(a.description.value)
    ensures Truthy(a.validation) ==> r["validation"] == Str(a.validation.value)
  {
    var always := map[
      "@_name" := Str(a.name),
      "data_type" := Str(WireName(a.dataType)),
      "required_on_create" := Bool(a.requiredOnCreate),
      "required_on_edit" := Bool(a.requiredOnEdit)];
    var withDescription := if Truthy(a.description) then always["description" := Str(a.description.value)] else always;
    if Truthy(a.validation) then withDescription["validation" := Str(a.validation.value)] else withDescription
  }

  /** The always-present entries carry the argument's own name, type and flags. */
  lemma ToXmlObjectFixedEntries(a: Argument)
    ensures var r := ToXmlObject(a);
      && r["@_name"] == Str(a.name)
      && r["data_type"].Str? && ParseWireName(r["data_type"].s) == Some(a.dataType)
      && r["required_on_create"] == Bool(a.requiredOnCreate)
      && r["required_on_edit"] == Bool(a.requiredOnEdit)
  {
    WireNameRoundTrip(a.dataType, "");
  }
}

=== FILE: argument_model.dfy ===
/** `normalizeArgument` (models/argument.ts): the argument objects of the object-based scheme. */
module ArgumentModel {
  import opened JsObject

  /** The properties `normalizeArgument` copies when defined. */
  function OptionalKeys(): seq<string> {
    ["data_type", "description", "required_on_create", "required_on_edit", "title", "validation"]
  }

  /**
   * `normalizeArgument(arg)`: the `@name` attribute always, each listed property iff
   * it is defined, nothing else, and no defaults filled in.
   */
  function NormalizeArgument(arg: Obj): (r: Obj)
    ensures "@name" in r && r["@name"] == Get(arg, "@name")
    ensures forall k :: k in OptionalKeys() ==> (k in r <==> Defined(arg, k))
    ensures forall k :: k in r && k != "@name" ==> k in OptionalKeys() && r[k] == Get(arg, k)
  {
    Pick(arg, "@name", OptionalKeys())
  }

  /** Normalising twice changes nothing. */
  lemma NormalizeArgumentIdempotent(arg: Obj)
    ensures NormalizeArgument(NormalizeArgument(arg)) == NormalizeArgument(arg)
  {
    PickIdempotent(arg, "@name", OptionalKeys());
  }

  /**
   * No defaults: an argument without `data_type` stays without one, and properties the
   * list does not name (such as `list_delimiter`) are dropped.
   */
  lemma NormalizeArgumentNoDefaults(arg: Obj, extra: string)
    requires extra != "@name" && extra !in OptionalKeys()
    ensures !Defined(arg, "data_type") ==> "data_type" !in NormalizeArgument(arg)
    ensures extra !in NormalizeArgument(arg)
  {
  }
}

=== FILE: base.dfy ===
/** Failure-carrying wrappers shared by every module of the model. */
module Base {

  /** A value that may be missing; `None` stands for JavaScript's `undefined`. */
  datatype Option<+T> = None | Some(value: T) {
    function GetOr(default: T): T {
      match this
      case Some(v) => v
      case None => default
    }
  }

  /** The outcome of an operation that may throw; `Err` carries the message. */
  datatype Result<+T> = Ok(value: T) | Err(message: string)

  /** The outcome of an asynchronous step with no value: it resolves or rejects. */
  datatype Outcome = Done | Failed(message: string)
}

=== FILE: definition.dfy ===
/**
 * Decoding of the host's configuration documents after XML parsing: the shared logic
 * of `GetInputConf`/`GetInputMeta` (models/definition.ts, attribute key `@name`) and
 * `GetParameters`/`CloneDefintionMeta` (definition.ts, attribute key `@_name`). The
 * parsed records below carry the `name` attribute already extracted, so the two
 * snapshots become one function.
 */
module Definition {
  import opened Base

  /** A stanza parameter: the text of a `param`, or the values of a `param_list`. */
  datatype Value = Scalar(text: string) | List(values: seq<string>)

  /** One input instance's configuration: parameter name to value. */
  type Stanza = map<string, Value>

  /**
   * A child element as the XML parser returns it: missing, a lone object (the element
   * occurs once), or an array (it occurs several times).
   */
  datatype Children<T> = Absent | Lone(item: T) | Listed(items: seq<T>)

  /** `Array.isArray(x) || x === undefined ? x : [x]`, followed by `?? []`. */
  function AsList<T>(c: Children<T>): seq<T> {
    match c
    case Absent => []
    case Lone(x) => [x]
    case Listed(xs) => xs
  }

  /** `<param name="name">text</param>` */
  datatype ParamXml = ParamXml(name: string, text: string)

  /** `<param_list name="name"><value>..</value>...</param_list>` */
  datatype ParamListXml = ParamListXml(name: string, value: Children<string>)

  /** `<stanza name="name">` (or `<item name="name">`) with its params and param_lists. */
  datatype StanzaXml = StanzaXml(name: string, param: Children<ParamXml>, paramList: Children<ParamListXml>)

  /** The run metadata; `None` is a field the document did not carry (read as `undefined`). */
  datatype Meta = Meta(
    checkpointDir: Option<string>,
    serverHost: Option<string>,
    serverUri: Option<string>,
    sessionKey: Option<string>)

  /** The metadata of a freshly constructed definition: the empty object `{}`. */
  const EmptyMeta := Meta(None, None, None, None)

  /** The parsed `<input>` document; `configuration` is its `configuration.stanza` child. */
  datatype InputXml = InputXml(
    checkpointDir: Option<string>,
    serverHost: Option<string>,
    serverUri: Option<string>,
    sessionKey: Option<string>,
    configuration: Children<StanzaXml>)

  /** The parsed `<items>` document of a validation request. */
  datatype ItemsXml = ItemsXml(
    checkpointDir: Option<string>,
    serverHost: Option<string>,
    serverUri: Option<string>,
    sessionKey: Option<string>,
    item: StanzaXml)

  /** `GetInputMeta(obj)`: the four metadata fields of an `<input>` document. */
  function GetInputMeta(x: InputXml): (m: Meta)
    ensures m.checkpointDir == x.checkpointDir && m.serverHost == x.serverHost
    ensures m.serverUri == x.serverUri && m.sessionKey == x.sessionKey
  {
    Meta(x.checkpointDir, x.serverHost, x.serverUri, x.sessionKey)
  }

  /** `CloneDefintionMeta(obj)`: the four metadata fields of an `<items>` document. */
  function CloneMeta(x: ItemsXml): (m: Meta)
    ensures m.checkpointDir == x.checkpointDir && m.serverHost == x.serverHost
    ensures m.serverUri == x.serverUri && m.sessionKey == x.sessionKey
  {
    Meta(x.checkpointDir, x.serverHost, x.serverUri, x.sessionKey)
  }

  /** The keys a sequence of named elements assigns. */
  function NamesOf<T>(xs: seq<T>, key: T -> string): (r: set<string>)
    ensures forall i :: 0 <= i < |xs| ==> key(xs[i]) in r
    ensures forall k :: k in r ==> exists i :: 0 <= i < |xs| && key(xs[i]) == k
    decreases |xs|
  {
    if xs == [] then {} else NamesOf(xs[..|xs| - 1], key) + {key(xs[|xs| - 1])}
  }

  /** `xs[i]` is the last element of `xs` with its name. */
  predicate IsLast<T>(xs: seq<T>, key: T -> string, i: int)
    requires 0 <= i < |xs|
  {
    forall j :: i < j < |xs| ==> key(xs[j]) != key(xs[i])
  }

  lemma IsLastOfInit<T>(xs: seq<T>, key: T -> string, i: int)
    requires 0 <= i < |xs| - 1 && IsLast(xs, key, i)
    ensures IsLast(xs[..|xs| - 1], key, i)
  {
  }

  /**
   * `for (x of xs) m[key(x)] = val(x)`: assignments in document order, so among
   * elements with the same name the last one wins.
   */
  function Assign<T, V>(m: map<string, V>, xs: seq<T>, key: T -> string, val: T -> V): (r: map<string, V>)
    ensures r.Keys == m.Keys + NamesOf(xs, key)
    ensures forall i :: 0 <= i < |xs| ==> key(xs[i]) in r
    ensures forall i :: 0 <= i < |xs| && IsLast(xs, key, i) ==> r[key(xs[i])] == val(xs[i])
    ensures forall k :: k in m && k !in NamesOf(xs, key) ==> r[k] == m[k]
    decreases |xs|
  {
    if xs == [] then m
    else
      var prev := Assign(m, xs[..|xs| - 1], key, val);
      AssignStep(m, xs, key, val, prev);
      prev[key(xs[|xs| - 1]) := val(xs[|xs| - 1])]
  }

  /** The inductive step of `Assign`: one more assignment keeps its contract. */
  lemma AssignStep<T, V>(m: map<string, V>, xs: seq<T>, key: T -> string, val: T -> V, prev: map<string, V>)
    requires |xs| > 0
    requires prev.Keys == m.Keys + NamesOf(xs[..|xs| - 1], key)
    requires forall i :: 0 <= i < |xs| - 1 && IsLast(xs[..|xs| - 1], key, i) ==> prev[key(xs[i])] == val(xs[i])
    requires forall k :: k in m && k !in NamesOf(xs[..|xs| - 1], key) ==> prev[k] == m[k]
    ensures var r := prev[key(xs[|xs| - 1]) := val(xs[|xs| - 1])];
      && r.Keys == m.Keys + NamesOf(xs, key)
      && (forall i :: 0 <= i < |xs| ==> key(xs[i]) in r)
      && (forall i :: 0 <= i < |xs| && IsLast(xs, key, i) ==> r[key(xs[i])] == val(xs[i]))
      && (forall k :: k in m && k !in NamesOf(xs, key) ==> r[k] == m[k])
  {
    var init, last := xs[..|xs| - 1], xs[|xs| - 1];
    var r := prev[key(last) := val(last)];
    assert NamesOf(xs, key) == NamesOf(init, key) + {key(last)};
    forall i | 0 <= i < |xs| ensures key(xs[i]) in r {
      if i < |xs| - 1 {
        assert xs[i] == init[i];
      }
    }
    forall i | 0 <= i < |xs| && IsLast(xs, key, i) ensures r[key(xs[i])] == val(xs[i]) {
      if i < |xs| - 1 {
        IsLastOfInit(xs, key, i);
      }
    }
  }

  /** Unfolds `Assign` at its last element. */
  lemma AssignSnoc<T, V>(m: map<string, V>, xs: seq<T>, key: T -> string, val: T -> V)
    requires |xs| > 0
    ensures Assign(m, xs, key, val) == Assign(m, xs[..|xs| - 1], key, val)[key(xs[|xs| - 1]) := val(xs[|xs| - 1])]
  {
  }

  /** Assigning `xs` and then `ys` is assigning `xs + ys`. */
  lemma {:induction false} AssignConcat<T, V>(m: map<string, V>, xs: seq<T>, ys: seq<T>, key: T -> string, val: T -> V)
    ensures Assign(m, xs + ys, key, val) == Assign(Assign(m, xs, key, val), ys, key, val)
    decreases |ys|
  {
    var zs := xs + ys;
    if ys == [] {
      assert zs == xs;
    } else {
      assert zs[..|zs| - 1] == xs + ys[..|ys| - 1];
      AssignConcat(m, xs, ys[..|ys| - 1], key, val);
      AssignSnoc(m, zs, key, val);
      AssignSnoc(Assign(m, xs, key, val), ys, key, val);
    }
  }

  /** A single element is a single assignment. */
  lemma AssignOne<T, V>(m: map<string, V>, x: T, key: T -> string, val: T -> V)
    ensures Assign(m, [x], key, val) == m[key(x) := val(x)]
  {
    AssignSnoc(m, [x], key, val);
    assert [x][..0] == [];
  }

  function ParamName(p: ParamXml): string { p.name }
  function ParamValue(p: ParamXml): Value { Scalar(p.text) }
  function ListName(p: ParamListXml): string { p.name }
  function ListEntry(p: ParamListXml): Value { ListValue(p.value) }

  /** The value a `param_list` decodes to: its `value` children, in document order. */
  function ListValue(v: Children<string>): (r: Value)
    ensures r.List?
    ensures v.Lone? ==> r.values == [v.item]
    ensures v.Absent? ==> r.values == []
  {
    List(AsList(v))
  }

  /**
   * What the source stores for a `param_list`: `param.value` as the parser returned
   * it, so a lone `<value>` arrives as a plain string and an empty list as `undefined`
   * (`None`).
   */
  function ListValueAsWritten(v: Children<string>): Option<Value> {
    match v
    case Absent => None
    case Lone(s) => Some(Scalar(s))
    case Listed(vs) => Some(List(vs))
  }

  /** A `param_list` holding one `<value>` is stored as a scalar, not as a one-element list. */
  lemma SingleValueBecomesScalar(s: string)
    ensures ListValueAsWritten(Lone(s)) == Some(Scalar(s))
    ensures ListValue(Lone(s)) == List([s])
    ensures ListValueAsWritten(Lone(s)) != Some(ListValue(Lone(s)))
  {
  }

  /** The two decoders agree whenever the parser produced an array of values. */
  lemma ListValueAgreesOnArrays(vs: seq<string>)
    ensures ListValueAsWritten(Listed(vs)) == Some(ListValue(Listed(vs)))
  {
  }

  /** Names of the params and param_lists of a parsed stanza. */
  function ParamNames(x: StanzaXml): set<string> {
    NamesOf(AsList(x.param), ParamName)
  }

  function ListNames(x: StanzaXml): set<string> {
    NamesOf(AsList(x.paramList), ListName)
  }

  /**
   * `GetInputConf(xml)` / `GetParameters(xml)`: params become scalars, then
   * param_lists become lists, so a list wins over a same-named param.
   */
  function DecodeStanza(x: StanzaXml): (r: Stanza)
    ensures r.Keys == ParamNames(x) + ListNames(x)
    ensures var ls := AsList(x.paramList);
      forall i :: 0 <= i < |ls| ==>
        && ls[i].name in r
        && (IsLast(ls, ListName, i) ==> r[ls[i].name] == ListValue(ls[i].value))
    ensures var ps := AsList(x.param);
      forall i :: 0 <= i < |ps| ==>
        && ps[i].name in r
        && (IsLast(ps, ParamName, i) && ps[i].name !in ListNames(x) ==> r[ps[i].name] == Scalar(ps[i].text))
  {
    var scalars := Assign(map[], AsList(x.param), ParamName, ParamValue);
    Assign(scalars, AsList(x.paramList), ListName, ListEntry)
  }

  /** A stanza without params and param_lists decodes to the empty configuration. */
  lemma EmptyStanzaDecodesEmpty(name: string)
    ensures DecodeStanza(StanzaXml(name, Absent, Absent)) == map[]
    ensures DecodeStanza(StanzaXml(name, Listed([]), Listed([]))) == map[]
  {
  }

  /** A lone `param` or `param_list` object decodes exactly like a one-element array. */
  lemma LoneChildIsOneElementList(name: string, p: ParamXml, l: ParamListXml)
    ensures DecodeStanza(StanzaXml(name, Lone(p), Lone(l))) == DecodeStanza(StanzaXml(name, Listed([p]), Listed([l])))
    ensures DecodeStanza(StanzaXml(name, Lone(p), Absent)) == map[p.name := Scalar(p.text)]
    ensures DecodeStanza(StanzaXml(name, Absent, Lone(l))) == map[l.name := ListValue(l.value)]
  {
  }

  /** A `param_list` wins over every `param` of the same name, wherever they occur. */
  lemma ListOverridesParam(x: StanzaXml, i: int, j: int)
    requires 0 <= i < |AsList(x.param)| && 0 <= j < |AsList(x.paramList)|
    requires AsList(x.param)[i].name == AsList(x.paramList)[j].name
    requires IsLast(AsList(x.paramList), ListName, j)
    ensures DecodeStanza(x)[AsList(x.param)[i].name] == ListValue(AsList(x.paramList)[j].value)
    ensures DecodeStanza(x)[AsList(x.param)[i].name].List?
  {
  }

  /** Every name that occurs in `xs` has a last occurrence. */
  lemma {:induction false} ExistsLast<T>(xs: seq<T>, key: T -> string, k: string)
    requires k in NamesOf(xs, key)
    ensures exists i :: 0 <= i < |xs| && key(xs[i]) == k && IsLast(xs, key, i)
    decreases |xs|
  {
    var n := |xs| - 1;
    if key(xs[n]) == k {
      assert IsLast(xs, key, n);
    } else {
      var init := xs[..n];
      assert k in NamesOf(init, key);
      ExistsLast(init, key, k);
      var i :| 0 <= i < |init| && key(init[i]) == k && IsLast(init, key, i);
      assert xs[i] == init[i];
      assert forall j :: i < j < n ==> xs[j] == init[j];
      assert IsLast(xs, key, i);
    }
  }

  /** The `param` elements that encode the scalar entries of `s`, in the order `order`. */
  function EncodeParams(s: Stanza, order: seq<string>): (r: seq<ParamXml>)
    requires forall k :: k in order ==> k in s
    ensures forall i :: 0 <= i < |r| ==> r[i].name in order && r[i].name in s && s[r[i].name] == Scalar(r[i].text)
    ensures forall k :: k in order && s[k].Scalar? ==> k in NamesOf(r, ParamName)
    decreases |order|
  {
    if order == [] then []
    else
      var k := order[|order| - 1];
      var init := order[..|order| - 1];
      assert forall k' :: k' in order ==> k' == k || k' in init;
      var prev := EncodeParams(s, init);
      if s[k].Scalar? then
        var r := prev + [ParamXml(k, s[k].text)];
        assert r[..|r| - 1] == prev;
        r
      else prev
  }

  /** The `param_list` elements that encode the list entries of `s`, in the order `order`. */
  function EncodeLists(s: Stanza, order: seq<string>): (r: seq<ParamListXml>)
    requires forall k :: k in order ==> k in s
    ensures forall i :: 0 <= i < |r| ==>
      r[i].name in order && r[i].name in s && s[r[i].name] == List(AsList(r[i].value))
    ensures forall k :: k in order && s[k].List? ==> k in NamesOf(r, ListName)
    decreases |order|
  {
    if order == [] then []
    else
      var k := order[|order| - 1];
      var init := order[..|order| - 1];
      assert forall k' :: k' in order ==> k' == k || k' in init;
      var prev := EncodeLists(s, init);
      if s[k].List? then
        var r := prev + [ParamListXml(k, Listed(s[k].values))];
        assert r[..|r| - 1] == prev;
        r
      else prev
  }

  /** A stanza element carrying the entries of `s` in the order `order`. */
  function EncodeStanza(name: string, s: Stanza, order: seq<string>): StanzaXml
    requires forall k :: k in order ==> k in s
  {
    StanzaXml(name, Listed(EncodeParams(s, order)), Listed(EncodeLists(s, order)))
  }

  /**
   * Decoding an encoded stanza gives the stanza back: scalars stay scalars, lists stay
   * lists with their order.
   */
  lemma DecodeEncodeScalar(name: string, s: Stanza, order: seq<string>, k: string)
    requires forall k :: k in order <==> k in s
    requires k in s && s[k].Scalar?
    ensures k in DecodeStanza(EncodeStanza(name, s, order))
    ensures DecodeStanza(EncodeStanza(name, s, order))[k] == s[k]
  {
    var x := EncodeStanza(name, s, order);
    var ps, ls := EncodeParams(s, order), EncodeLists(s, order);
    assert AsList(x.param) == ps && AsList(x.paramList) == ls;
    assert k in order;
    ExistsLast(ps, ParamName, k);
    var i :| 0 <= i < |ps| && ParamName(ps[i]) == k && IsLast(ps, ParamName, i);
    forall j | 0 <= j < |ls| ensures ListName(ls[j]) != k {
      assert s[ls[j].name].List?;
    }
    assert k !in ListNames(x);
  }

  lemma DecodeEncodeList(name: string, s: Stanza, order: seq<string>, k: string)
    requires forall k :: k in order <==> k in s
    requires k in s && s[k].List?
    ensures k in DecodeStanza(EncodeStanza(name, s, order))
    ensures DecodeStanza(EncodeStanza(name, s, order))[k] == s[k]
  {
    var x := EncodeStanza(name, s, order);
    var ls := EncodeLists(s, order);
    assert AsList(x.paramList) == ls;
    assert k in order;
    ExistsLast(ls, ListName, k);
  }

  lemma DecodeEncodeKeys(name: string, s: Stanza, order: seq<string>)
    requires forall k :: k in order <==> k in s
    ensures DecodeStanza(EncodeStanza(name, s, order)).Keys <= s.Keys
  {
    var x := EncodeStanza(name, s, order);
    assert AsList(x.param) == EncodeParams(s, order) && AsList(x.paramList) == EncodeLists(s, order);
  }

  /**
   * Decoding an encoded stanza gives the stanza back: scalars stay scalars, lists stay
   * lists with their order.
   */
  lemma {:induction false} DecodeEncode(name: string, s: Stanza, order: seq<string>)
    requires forall k :: k in order <==> k in s
    ensures DecodeStanza(EncodeStanza(name, s, order)) == s
  {
    var r := DecodeStanza(EncodeStanza(name, s, order));
    forall k | k in s ensures k in r && r[k] == s[k] {
      if s[k].Scalar? {
        DecodeEncodeScalar(name, s, order, k);
      } else {
        DecodeEncodeList(name, s, order, k);
      }
    }
    DecodeEncodeKeys(name, s, order);
    SameEntries(r, s);
  }

  lemma SameEntries<V>(r: map<string, V>, s: map<string, V>)
    requires r.Keys <= s.Keys
    requires forall k :: k in s ==> k in r && r[k] == s[k]
    ensures r == s
  {
  }

  /** Decode, encode, decode: the configuration is stable (a stanza's round trip through the wire). */
  lemma DecodeEncodeDecode(x: StanzaXml, order: seq<string>)
    requires forall k :: k in order <==> k in DecodeStanza(x)
    ensures DecodeStanza(EncodeStanza(x.name, DecodeStanza(x), order)) == DecodeStanza(x)
  {
    DecodeEncode(x.name, DecodeStanza(x), order);
  }

  function StanzaName(x: StanzaXml): string { x.name }

  /**
   * The stanza map: each stanza's name to its freshly decoded configuration, a lone
   * `<stanza>` read as a one-element list. A later stanza of the same name replaces
   * the earlier one.
   */
  function StanzaMap(c: Children<StanzaXml>): (r: map<string, Stanza>)
    ensures r.Keys == NamesOf(AsList(c), StanzaName)
    ensures var xs := AsList(c);
      forall i :: 0 <= i < |xs| ==> xs[i].name in r && (IsLast(xs, StanzaName, i) ==> r[xs[i].name] == DecodeStanza(xs[i]))
  {
    Assign(map[], AsList(c), StanzaName, DecodeStanza)
  }

  /** A lone `<stanza>` gives a one-entry map. */
  lemma StanzaMapOfLone(x: StanzaXml)
    ensures StanzaMap(Lone(x)) == map[x.name := DecodeStanza(x)]
  {
    AssignSnoc(map[], [x], StanzaName, DecodeStanza);
    assert [x][..0] == [];
  }
}

=== FILE: event.dfy ===
/** The `Event` class (event.ts): constructor defaults and the wire object `toXmlObject` builds. */
module Event {
  import opened Base
  import opened JsObject
  import SplunkTime

  /** The payload: a string, or another value together with what its `toString()` returns. */
  datatype EventData = Text(s: string) | Other(shown: string)

  /** `EventConfig`: the optional fields are `None` when the caller leaves them out. */
  datatype EventConfig = EventConfig(
    data: EventData,
    stanza: string,
    time: SplunkTime.TimeInput,
    host: Option<string>,
    index: Option<string>,
    source: Option<string>,
    sourcetype: Option<string>,
    done: Option<bool>,
    unbroken: Option<bool>)

  datatype Event = Event(
    data: EventData,
    stanza: string,
    time: SplunkTime.TimeInput,
    host: Option<string>,
    index: Option<string>,
    source: Option<string>,
    sourcetype: Option<string>,
    done: bool,
    unbroken: bool)

  /** `new Event(config)`: `done` and `unbroken` default to true through `??`. */
  function New(c: EventConfig): (e: Event)
    ensures e.done <==> c.done != Some(false)
    ensures e.unbroken <==> c.unbroken != Some(false)
    ensures e.data == c.data && e.stanza == c.stanza && e.time == c.time
    ensures e.host == c.host && e.index == c.index && e.source == c.source && e.sourcetype == c.sourcetype
  {
    Event(c.data, c.stanza, c.time, c.host, c.index, c.source, c.sourcetype,
          c.done.GetOr(true), c.unbroken.GetOr(true))
  }

  /** The keys every event object carries; `@_` is the attribute prefix of the `Legacy` dialect. */
  function FixedKeys(): set<string> {
    {"@_stanza", "@_unbroken", "time", "data", "source", "sourcetype", "host", "index"}
  }

  /** `this.x ?? ''` for an optional metadata field. */
  function OrEmpty(o: Option<string>): (r: JVal)
    ensures o.None? ==> r == Str("")
    ensures o.Some? ==> r == Str(o.value)
  {
    Str(o.GetOr(""))
  }

  /** The `time` entry: seconds with three decimals, read back as the instant it encodes. */
  function TimeField(t: SplunkTime.TimeInput): (r: JVal)
    ensures r.Str? && SplunkTime.ParseSeconds(r.s) == Some(SplunkTime.MillisOf(t))
  {
    Str(SplunkTime.GetSplunkFormattedTime(t))
  }

  /** The `data` entry. */
  function DataField(d: EventData, stringify: string -> string): (r: JVal)
    ensures d.Text? ==> r == Str(stringify(d.s))
    ensures d.Other? ==> r == Str(d.shown)
  {
    Str(match d case Text(s) => stringify(s) case Other(shown) => shown)
  }

  /** The object literal of `toXmlObject()`, before the `done` marker is added. */
  function EventObject(stanza: JVal, unbroken: JVal, time: JVal, data: JVal, source: JVal, sourcetype: JVal, host: JVal, index: JVal): (r: Obj)
    ensures r.Keys == FixedKeys() && "done" !in r
    ensures r["@_stanza"] == stanza && r["@_unbroken"] == unbroken
    ensures r["time"] == time && r["data"] == data
    ensures r["source"] == source && r["sourcetype"] == sourcetype
    ensures r["host"] == host && r["index"] == index
  {
    map[
      "@_stanza" := stanza,
      "@_unbroken" := unbroken,
      "time" := time,
      "data" := data,
      "source" := source,
      "sourcetype" := sourcetype,
      "host" := host,
      "index" := index]
  }

  /**
   * `toXmlObject()`. `stringify` stands for `JSON.stringify` on string payloads, which
   * the model leaves uninterpreted.
   */
  function ToXmlObject(e: Event, stringify: string -> string): (r: Obj)
    ensures r.Keys == FixedKeys() + (if e.done then {"done"} else {})
    ensures "done" in r ==> r["done"] == Object(map[])
  {
    var evt := EventObject(
      Str(e.stanza),
      Str(if e.unbroken then "1" else "0"),
      TimeField(e.time),
      DataField(e.data, stringify),
      OrEmpty(e.source),
      OrEmpty(e.sourcetype),
      OrEmpty(e.host),
      OrEmpty(e.index));
    if e.done then evt["done" := Object(map[])] else evt
  }

  /** The attributes and the `time` and `data` entries of the event object. */
  lemma ToXmlObjectAttributes(e: Event, stringify: string -> string)
    ensures var r := ToXmlObject(e, stringify);
      && r["@_stanza"] == Str(e.stanza)
      && (e.unbroken ==> r["@_unbroken"] == Str("1"))
      && (!e.unbroken ==> r["@_unbroken"] == Str("0"))
      && r["time"] == TimeField(e.time)
      && r["data"] == DataField(e.data, stringify)
  {
  }

  /** Metadata fields left out of the configuration are sent as empty elements. */
  lemma ToXmlObjectMetadata(e: Event, stringify: string -> string)
    ensures var r := ToXmlObject(e, stringify);
      && r["host"] == OrEmpty(e.host) && r["index"] == OrEmpty(e.index)
      && r["source"] == OrEmpty(e.source) && r["sourcetype"] == OrEmpty(e.sourcetype)
  {
  }

  /**
   * Constructor and encoder together: an event built without `done`/`unbroken` is a
   * complete record (`unbroken="1"` and a `done` element); `done: false` drops the
   * element and `unbroken: false` gives `unbroken="0"`.
   */
  lemma ConfigFragmentBits(c: EventConfig, stringify: string -> string)
    ensures var r := ToXmlObject(New(c), stringify);
      && ("done" in r <==> c.done != Some(false))
      && (r["@_unbroken"] == Str("0") <==> c.unbroken == Some(false))
      && (c.done.None? && c.unbroken.None? ==> "done" in r && r["@_unbroken"] == Str("1"))
  {
    ToXmlObjectAttributes(New(c), stringify);
  }
}

=== FILE: event_model.dfy ===
/** `normalizeEvent` (models/event.ts): the event object a user hands to the writer callback. */
module EventModel {
  import opened JsObject

  /** The keys copied only when defined. */
  function OptionalKeys(): seq<string> {
    ["host", "index", "source", "sourcetype", "time"]
  }

  /**
   * `normalizeEvent(e)`: `data` always (even when undefined), each optional field iff
   * defined, and nothing else.
   */
  function NormalizeEvent(e: Obj): (r: Obj)
    ensures "data" in r && r["data"] == Get(e, "data")
    ensures forall k :: k in OptionalKeys() ==> (k in r <==> Defined(e, k))
    ensures forall k :: k in r && k != "data" ==> k in OptionalKeys() && r[k] == Get(e, k)
  {
    Pick(e, "data", OptionalKeys())
  }

  /** Normalising twice changes nothing. */
  lemma NormalizeEventIdempotent(e: Obj)
    ensures NormalizeEvent(NormalizeEvent(e)) == NormalizeEvent(e)
  {
    PickIdempotent(e, "data", OptionalKeys());
  }

  /** Properties outside `data` and the five optional fields are dropped. */
  lemma NormalizeEventDropsExtras(e: Obj, k: string)
    requires k != "data" && k !in OptionalKeys()
    ensures k !in NormalizeEvent(e)
  {
  }
}

=== FILE: eventwriter.dfy ===
/** The `EventWriter` class (eventwriter.ts): the class-based runner's output stream. */
module EventWriter {
  import opened Base
  import opened JsObject
  import Event

  /** One `write` on the output stream, kept with what produced it. */
  datatype Chunk =
    | StreamOpen             // the lazy "<stream>" header
    | EventXml(text: string) // a serialised event
    | DocumentXml(text: string) // a serialised stand-alone document
    | StreamClose            // "</stream>"

  /** The characters a chunk puts on the stream. */
  function ChunkText(c: Chunk): string {
    match c
    case StreamOpen => "<stream>"
    case EventXml(text) => text
    case DocumentXml(text) => text
    case StreamClose => "</stream>"
  }

  /** The serializer; `None` where it throws. */
  type Serializer = JVal -> Option<string>

  datatype Writer = Writer(headerWritten: bool, out: seq<Chunk>)

  /** A new writer: nothing written, header pending. */
  function New(): (w: Writer)
    ensures !w.headerWritten && w.out == []
  {
    Writer(false, [])
  }

  /**
   * `writeEvent(event)`: the header first if it has not been written, then the
   * serialised event. A serializer failure is rethrown after the header is already out.
   */
  function WriteEvent(w: Writer, e: Event.Event, stringify: string -> string, serialize: Serializer): (r: (Writer, Outcome))
    ensures r.0.headerWritten
    ensures var n := |w.out| + (if w.headerWritten then 0 else 1);
      && |r.0.out| == n + (if r.1 == Done then 1 else 0)
      && r.0.out[..|w.out|] == w.out
      && (!w.headerWritten ==> r.0.out[|w.out|] == StreamOpen)
      && (r.1 == Done ==> r.0.out[n].EventXml?)
    ensures forall i :: |w.out| <= i < |r.0.out| ==> r.0.out[i] != StreamClose
  {
    var started := if w.headerWritten then w else Writer(true, w.out + [StreamOpen]);
    match serialize(Object(Event.ToXmlObject(e, stringify)))
    case Some(text) => (started.(out := started.out + [EventXml(text)]), Done)
    case None => (started, Failed("serialization error"))
  }

  /** What `writeEvent` writes after the header: the serialised `toXmlObject()`, or nothing when that throws. */
  lemma WriteEventSerializes(w: Writer, e: Event.Event, stringify: string -> string, serialize: Serializer)
    ensures var r := WriteEvent(w, e, stringify, serialize);
      var doc := serialize(Object(Event.ToXmlObject(e, stringify)));
      && (r.1 == Done <==> doc.Some?)
      && (doc.Some? ==> r.0.out[|r.0.out| - 1] == EventXml(doc.value))
  {
  }

  /** `writeXMLDocument(doc)`: the serialised document, with no header. */
  function WriteXMLDocument(w: Writer, doc: JVal, serialize: Serializer): (r: (Writer, Outcome))
    ensures r.0.headerWritten == w.headerWritten
    ensures r.1 == Done <==> serialize(doc).Some?
    ensures r.1 == Done ==> r.0.out == w.out + [DocumentXml(serialize(doc).value)]
    ensures r.1 != Done ==> r.0 == w
  {
    match serialize(doc)
    case Some(text) => (w.(out := w.out + [DocumentXml(text)]), Done)
    case None => (w, Failed("serialization error"))
  }

  /** `close()`: always writes the closing tag; it does not look at or reset the header flag. */
  function Close(w: Writer): (r: Writer)
    ensures r.headerWritten == w.headerWritten
    ensures |r.out| == |w.out| + 1 && r.out[..|w.out|] == w.out && r.out[|w.out|] == StreamClose
  {
    w.(out := w.out + [StreamClose])
  }

  /**
   * What the header flag promises: it is set exactly when the header was written, the
   * header is written at most once, and every event comes after it.
   */
  ghost predicate HeaderDiscipline(w: Writer) {
    && (w.headerWritten <==> StreamOpen in w.out)
    && (forall i, j :: 0 <= i < j < |w.out| && w.out[i] == StreamOpen ==> w.out[j] != StreamOpen)
    && (forall j :: 0 <= j < |w.out| && w.out[j].EventXml? ==> StreamOpen in w.out[..j])
  }

  /** A call a modular input makes on the writer; failures are not acted on. */
  datatype Call = WriteEventCall(e: Event.Event) | WriteDocumentCall(doc: JVal) | CloseCall

  function Step(w: Writer, c: Call, stringify: string -> string, serialize: Serializer): Writer {
    match c
    case WriteEventCall(e) => WriteEvent(w, e, stringify, serialize).0
    case WriteDocumentCall(doc) => WriteXMLDocument(w, doc, serialize).0
    case CloseCall => Close(w)
  }

  /** The calls in order, each seeing the writer the previous one left. */
  function Run(w: Writer, calls: seq<Call>, stringify: string -> string, serialize: Serializer): Writer
    decreases |calls|
  {
    if calls == [] then w else Run(Step(w, calls[0], stringify, serialize), calls[1..], stringify, serialize)
  }

  lemma AppendPreserves(w: Writer, c: Chunk, flag: bool)
    requires HeaderDiscipline(w)
    requires c == StreamOpen ==> !w.headerWritten && flag
    requires c != StreamOpen ==> flag == w.headerWritten
    requires c.EventXml? ==> w.headerWritten
    ensures HeaderDiscipline(Writer(flag, w.out + [c]))
  {
    var out := w.out + [c];
    assert out[..|w.out|] == w.out;
    forall j | 0 <= j < |out| && out[j].EventXml?
      ensures StreamOpen in out[..j]
    {
      if j < |w.out| {
        assert out[..j] == w.out[..j];
      } else {
        assert StreamOpen in w.out;
        assert out[..j] == w.out;
      }
    }
  }

  /** Each call keeps the discipline. */
  lemma StepPreserves(w: Writer, c: Call, stringify: string -> string, serialize: Serializer)
    requires HeaderDiscipline(w)
    ensures HeaderDiscipline(Step(w, c, stringify, serialize))
  {
    match c
    case WriteEventCall(e) =>
      var started := if w.headerWritten then w else Writer(true, w.out + [StreamOpen]);
      if !w.headerWritten {
        AppendPreserves(w, StreamOpen, true);
      }
      if serialize(Object(Event.ToXmlObject(e, stringify))).Some? {
        AppendPreserves(started, EventXml(serialize(Object(Event.ToXmlObject(e, stringify))).value), true);
      }
    case WriteDocumentCall(doc) =>
      if serialize(doc).Some? {
        AppendPreserves(w, DocumentXml(serialize(doc).value), w.headerWritten);
      }
    case CloseCall =>
      AppendPreserves(w, StreamClose, w.headerWritten);
  }

  /** From a new writer, any sequence of calls writes the header at most once and before every event. */
  lemma {:induction false} RunKeepsHeaderDiscipline(w: Writer, calls: seq<Call>, stringify: string -> string, serialize: Serializer)
    requires HeaderDiscipline(w)
    ensures HeaderDiscipline(Run(w, calls, stringify, serialize))
    decreases |calls|
  {
    if calls != [] {
      StepPreserves(w, calls[0], stringify, serialize);
      RunKeepsHeaderDiscipline(Step(w, calls[0], stringify, serialize), calls[1..], stringify, serialize);
    }
  }

  /** A writer that is closed before any event was written emits a lone closing tag. */
  lemma CloseBeforeAnyEvent()
    ensures Close(New()).out == [StreamClose]
    ensures !Close(New()).headerWritten
  {
  }
}

=== FILE: execute.dfy ===
/** `ExecuteModularInput` (commands/execute.ts): the object-based runner's command dispatch. */
module Execute {
  import opened Base
  import opened JsObject
  import Definition
  import XmlStream
  import StreamEvents

  /**
   * The file's own `streamEvents`: like the shared command (the stanza map built with
   * `reduce`, so one stanza or none throws before anything is written), but the
   * `<stream>` element is opened and never closed.
   */
  function StreamWithoutClose(
    s: XmlStream.Stream,
    input: Result<Definition.InputXml>,
    session: (Definition.Meta, map<string, Definition.Stanza>) -> StreamEvents.Session,
    serialize: XmlStream.Serializer): (r: (XmlStream.Stream, Outcome))
    ensures input.Err? ==> r == (s, Failed(input.message))
    ensures input.Ok? && input.value.configuration.Absent? ==> r == (s, Failed(StreamEvents.ReduceOfUndefined))
    ensures input.Ok? && input.value.configuration.Lone? ==> r == (s, Failed(StreamEvents.ReduceFailed))
    ensures input.Ok? && input.value.configuration.Listed? ==> r.0.tags == s.tags + ["stream"]
    ensures input.Ok? && input.value.configuration.Listed? ==>
      |r.0.out| > |s.out| && r.0.out[..|s.out|] == s.out && r.0.out[|s.out|] == XmlStream.OpenTag("stream", "")
    ensures forall i :: |s.out| <= i < |r.0.out| ==> !r.0.out[i].CloseTag?
  {
    match input
    case Err(m) => (s, Failed(m))
    case Ok(def) =>
      match StreamEvents.StanzaMapAsWritten(def.configuration)
      case Err(m) => (s, Failed(m))
      case Ok(stanzas) => StreamEvents.OpenAndWrite(s, session(Definition.GetInputMeta(def), stanzas), serialize)
  }

  /**
   * Against the shared command, the only difference is the missing end tag: once
   * `<stream>` is opened, the shared command's output is this one's followed by
   * `</stream>`; before that, the two fail alike and write nothing.
   */
  lemma StreamWithoutCloseMissesEndTag(
    s: XmlStream.Stream,
    input: Result<Definition.InputXml>,
    session: (Definition.Meta, map<string, Definition.Stanza>) -> StreamEvents.Session,
    serialize: XmlStream.Serializer)
    ensures var shared := StreamEvents.StreamEvents(s, input, session, serialize);
      var local := StreamWithoutClose(s, input, session, serialize);
      if input.Ok? && input.value.configuration.Listed? then
        && shared.0.out == local.0.out + [XmlStream.CloseTag("stream")]
        && shared.1 == local.1
        && local.0.tags == shared.0.tags + ["stream"]
      else
        shared == local && local.0 == s
  {
  }

  /**
   * `validateArguments(stream, input)`: read the `<items>` document; without a
   * `validateInput` hook nothing more happens. Otherwise the item is decoded and
   * validated; a rejection writes an error document (not awaited, so a failure to
   * write it is not reported) and is rethrown.
   */
  function ValidateArguments(
    s: XmlStream.Stream,
    items: Result<Definition.ItemsXml>,
    validate: Option<(Definition.Meta, Definition.Stanza) -> Outcome>,
    serialize: XmlStream.Serializer): (r: (XmlStream.Stream, Outcome))
    ensures r.0.tags == s.tags
    ensures items.Err? ==> r == (s, Failed(items.message))
    ensures items.Ok? && validate.None? ==> r == (s, Done)
    ensures items.Ok? && validate.Some? ==>
      var verdict := validate.value(Definition.CloneMeta(items.value), Definition.DecodeStanza(items.value.item));
      && r.1 == verdict
      && (verdict.Failed? && serialize(ErrorDocument(verdict.message)).Some? ==>
            r.0.out == s.out + [XmlStream.ObjectXml(serialize(ErrorDocument(verdict.message)).value)])
      && (verdict == Done || serialize(ErrorDocument(verdict.message)).None? ==> r.0 == s)
  {
    match items
    case Err(m) => (s, Failed(m))
    case Ok(def) =>
      match validate
      case None => (s, Done)
      case Some(hook) =>
        match hook(Definition.CloneMeta(def), Definition.DecodeStanza(def.item))
        case Done => (s, Done)
        case Failed(m) =>
          match XmlStream.WriteObject(s, ErrorDocument(m), serialize)
          case Ok(s1) => (s1, Failed(m))
          case Err(_) => (s, Failed(m))
  }

  /** Which branch `run` takes. */
  datatype Mode = SchemeMode | ValidateMode | StreamMode

  /** The `--scheme` flag wins over `--validate-arguments`; with neither, events are streamed. */
  function SelectMode(scheme: bool, validate: bool): (m: Mode)
    ensures m == SchemeMode <==> scheme
    ensures m == ValidateMode <==> !scheme && validate
    ensures m == StreamMode <==> !scheme && !validate
  {
    if scheme then SchemeMode else if validate then ValidateMode else StreamMode
  }

  /** What `create` yields: the input's scheme object and hooks. */
  datatype Input = Input(
    scheme: JVal,
    session: (Definition.Meta, map<string, Definition.Stanza>) -> StreamEvents.Session,
    validate: Option<(Definition.Meta, Definition.Stanza) -> Outcome>,
    dispose: Option<Outcome>)

  /** The documents the command may read, and the serializer. */
  datatype Env = Env(
    input: Result<Definition.InputXml>,
    items: Result<Definition.ItemsXml>,
    serialize: XmlStream.Serializer)

  /** The chosen branch. */
  function RunMode(s: XmlStream.Stream, mode: Mode, m: Input, env: Env): (r: (XmlStream.Stream, Outcome))
    ensures mode == SchemeMode ==>
      var doc := Object(map["scheme" := m.scheme]);
      && (r.1 == Done <==> env.serialize(doc).Some?)
      && (r.1 == Done ==> r.0.out == s.out + [XmlStream.ObjectXml(env.serialize(doc).value)])
      && (r.1 != Done ==> r.0 == s)
  {
    match mode
    case SchemeMode =>
      (match XmlStream.WriteObject(s, Object(map["scheme" := m.scheme]), env.serialize)
       case Ok(s1) => (s1, Done)
       case Err(e) => (s, Failed(e)))
    case ValidateMode => ValidateArguments(s, env.items, m.validate, env.serialize)
    case StreamMode => StreamWithoutClose(s, env.input, m.session, env.serialize)
  }

  /**
   * `run(argv)`: create the input (a failure ends the command before anything else),
   * run the selected branch, then await `dispose` if the input has one. A rejection
   * of `dispose` replaces the branch's outcome, as a throwing `finally` does.
   */
  function Run(s: XmlStream.Stream, scheme: bool, validate: bool, created: Result<Input>, env: Env): (r: (XmlStream.Stream, Outcome))
    ensures created.Err? ==> r == (s, Failed(created.message))
    ensures created.Ok? ==> r.0 == RunMode(s, SelectMode(scheme, validate), created.value, env).0
    ensures created.Ok? && created.value.dispose.Some? && created.value.dispose.value.Failed? ==> r.1 == created.value.dispose.value
    ensures created.Ok? && (created.value.dispose.None? || created.value.dispose == Some(Done)) ==>
      r.1 == RunMode(s, SelectMode(scheme, validate), created.value, env).1
  {
    match created
    case Err(e) => (s, Failed(e))
    case Ok(m) =>
      var (s1, outcome) := RunMode(s, SelectMode(scheme, validate), m, env);
      match m.dispose
      case Some(Failed(e)) => (s1, Failed(e))
      case _ => (s1, outcome)
  }

  /** With `--scheme` given, `--validate-arguments` changes nothing. */
  lemma SchemeFlagWins(s: XmlStream.Stream, validate: bool, created: Result<Input>, env: Env)
    ensures Run(s, true, validate, created, env) == Run(s, true, !validate, created, env)
  {
  }
}

=== FILE: inputdefinition.dfy ===
/** `InputDefinition` (inputdefinition.ts): the decoded `<input>` document of streaming mode. */
module InputDefinition {
  import opened Base
  import opened Definition

  /** Run metadata plus a map from stanza name to that stanza's configuration. */
  datatype InputDefinition = InputDefinition(inputs: map<string, Stanza>, metadata: Meta)

  /** `new InputDefinition()`. */
  function New(): (d: InputDefinition)
    ensures d.inputs == map[]
    ensures d.metadata.checkpointDir.None? && d.metadata.serverHost.None?
    ensures d.metadata.serverUri.None? && d.metadata.sessionKey.None?
  {
    InputDefinition(map[], EmptyMeta)
  }

  /** The error `for..of` throws on a lone `param` or `param_list` object of a stanza. */
  const NotIterable := "TypeError: object is not iterable"

  /** The error `for..of` throws when the document has no `<stanza>` at all. */
  const StanzasUndefined := "TypeError: undefined is not iterable (cannot read property Symbol(Symbol.iterator))"

  /** The error `for..of` throws when the stanzas arrived as a lone object. */
  const StanzaNotIterable := "TypeError: obj.input.configuration.stanza is not iterable"

  /** No `param` or `param_list` of `s` arrived as a lone object. */
  predicate ChildrenIterable(s: StanzaXml) {
    !s.param.Lone? && !s.paramList.Lone?
  }

  /**
   * One stanza as the loops of `parse` decode it: `?? []` covers a missing child,
   * but `for..of` over a lone object throws.
   */
  function StanzaAsWritten(s: StanzaXml): (r: Result<Stanza>)
    ensures r.Ok? <==> ChildrenIterable(s)
    ensures r.Ok? ==> r.value == DecodeStanza(s)
  {
    if s.param.Lone? || s.paramList.Lone? then Err(NotIterable) else Ok(DecodeStanza(s))
  }

  /** The stanza loop of `parse`: a later stanza of the same name gets a fresh map. */
  function InputsAsWritten(xs: seq<StanzaXml>): (r: Result<map<string, Stanza>>)
    ensures r.Err? ==> r == Err(NotIterable)
    decreases |xs|
  {
    if xs == [] then Ok(map[])
    else
      var init, last := xs[..|xs| - 1], xs[|xs| - 1];
      assert forall i :: 0 <= i < |xs| - 1 ==> init[i] == xs[i];
      match InputsAsWritten(init)
      case Err(e) => Err(e)
      case Ok(m) =>
        match StanzaAsWritten(last)
        case Err(e) => Err(e)
        case Ok(st) =>
          Ok(m[last.name := st])
  }

  /** The stanza loop throws exactly when some stanza has a lone `param` or `param_list` object. */
  lemma {:induction false} InputsAsWrittenFails(xs: seq<StanzaXml>)
    ensures InputsAsWritten(xs).Ok? <==> forall i :: 0 <= i < |xs| ==> ChildrenIterable(xs[i])
    decreases |xs|
  {
    if xs != [] {
      var init := xs[..|xs| - 1];
      InputsAsWrittenFails(init);
      InputsAsWrittenStep(xs);
      AllIterableSnoc(xs);
    }
  }

  /** One more stanza: the loop completes iff it completed before and the new stanza is iterable. */
  lemma InputsAsWrittenStep(xs: seq<StanzaXml>)
    requires xs != []
    ensures InputsAsWritten(xs).Ok? <==> InputsAsWritten(xs[..|xs| - 1]).Ok? && ChildrenIterable(xs[|xs| - 1])
  {
  }

  /** No stanza of `xs` has a lone child. */
  predicate AllIterable(xs: seq<StanzaXml>) {
    forall i :: 0 <= i < |xs| ==> ChildrenIterable(xs[i])
  }

  /** Every stanza is iterable iff every one but the last is, and the last is. */
  lemma AllIterableSnoc(xs: seq<StanzaXml>)
    requires xs != []
    ensures AllIterable(xs) <==> AllIterable(xs[..|xs| - 1]) && ChildrenIterable(xs[|xs| - 1])
  {
    assert forall i :: 0 <= i < |xs| - 1 ==> xs[..|xs| - 1][i] == xs[i];
  }

  lemma {:induction false} InputsAsWrittenValue(xs: seq<StanzaXml>)
    ensures InputsAsWritten(xs).Ok? ==> InputsAsWritten(xs).value == Assign(map[], xs, StanzaName, DecodeStanza)
    decreases |xs|
  {
    if xs != [] {
      var init := xs[..|xs| - 1];
      InputsAsWrittenValue(init);
      AssignSnoc(map[], xs, StanzaName, DecodeStanza);
    }
  }

  /**
   * `InputDefinition.parse` as written: metadata copied, then `for..of` over
   * `configuration.stanza`, which throws unless the parser produced an array.
   */
  function ParseAsWritten(x: InputXml): (r: Result<InputDefinition>)
    ensures r.Ok? <==> x.configuration.Listed? && forall i :: 0 <= i < |x.configuration.items| ==> ChildrenIterable(x.configuration.items[i])
    ensures r.Ok? ==> r.value == Parse(x)
    ensures x.configuration.Absent? ==> r == Err(StanzasUndefined)
    ensures x.configuration.Lone? ==> r == Err(StanzaNotIterable)
    ensures x.configuration.Listed? && r.Err? ==> r == Err(NotIterable)
  {
    match x.configuration
    case Listed(xs) =>
      InputsAsWrittenFails(xs);
      InputsAsWrittenValue(xs);
      (match InputsAsWritten(xs)
       case Err(e) => Err(e)
       case Ok(m) => Ok(InputDefinition(m, GetInputMeta(x))))
    case Lone(_) => Err(StanzaNotIterable)
    case Absent => Err(StanzasUndefined)
  }

  /**
   * `InputDefinition.parse` with lone `<stanza>`, `<param>` and `<param_list>` objects
   * read as one-element lists, as `GetParameters` does for params.
   */
  function Parse(x: InputXml): (d: InputDefinition)
    ensures d.metadata.checkpointDir == x.checkpointDir && d.metadata.serverHost == x.serverHost
    ensures d.metadata.serverUri == x.serverUri && d.metadata.sessionKey == x.sessionKey
    ensures d.inputs.Keys == NamesOf(AsList(x.configuration), StanzaName)
    ensures var xs := AsList(x.configuration);
      forall i :: 0 <= i < |xs| && IsLast(xs, StanzaName, i) ==> d.inputs[xs[i].name] == DecodeStanza(xs[i])
  {
    InputDefinition(StanzaMap(x.configuration), GetInputMeta(x))
  }

  /** One configured input arrives as a lone `<stanza>` object, and the written parser throws on it. */
  lemma LoneStanzaRejected(x: InputXml, s: StanzaXml)
    requires x.configuration == Lone(s)
    ensures ParseAsWritten(x).Err?
    ensures Parse(x).inputs.Keys == {s.name}
    ensures Parse(x).inputs[s.name] == DecodeStanza(s)
  {
    assert IsLast([s], StanzaName, 0);
  }

  /** The first stanza of the documented example: four params, no `param_list`. */
  const ExampleAaa := StanzaXml("foobar://aaa", Listed([
    ParamXml("param1", "value1"), ParamXml("param2", "value2"),
    ParamXml("disabled", "0"), ParamXml("index", "default")]), Absent)

  /** The second stanza of the documented example: four params and two two-value `param_list`s. */
  const ExampleBbb := StanzaXml("foobar://bbb", Listed([
    ParamXml("param1", "value11"), ParamXml("param2", "value22"),
    ParamXml("disabled", "0"), ParamXml("index", "default")]),
    Listed([ParamListXml("multiValue", Listed(["value1", "value2"])),
            ParamListXml("multiValue2", Listed(["value3", "value4"]))]))

  /** The `<input>` document of the `@example` that documents the input definition. */
  const ExampleInput := InputXml(
    Some("/opt/splunk/var/lib/splunk/modinputs"), Some("tiny"), Some("https://127.0.0.1:8089"),
    Some("123102983109283019283"), Listed([ExampleAaa, ExampleBbb]))

  /** The first stanza of the documented example, decoded on its own. */
  lemma ExampleAaaDecodes()
    ensures DecodeStanza(ExampleAaa) ==
      map["param1" := Scalar("value1"), "param2" := Scalar("value2"), "disabled" := Scalar("0"), "index" := Scalar("default")]
  {
    var a := AsList(ExampleAaa.param);
    var m := Assign(map[], a, ParamName, ParamValue);
    assert m == map["param1" := Scalar("value1"), "param2" := Scalar("value2"), "disabled" := Scalar("0"), "index" := Scalar("default")] by {
      FourAssignments(a, ParamName, ParamValue);
    }
    assert AsList(ExampleAaa.paramList) == [];
    assert DecodeStanza(ExampleAaa) == Assign(m, [], ListName, ListEntry);
  }

  /** The second stanza of the documented example, decoded on its own. */
  lemma ExampleBbbDecodes()
    ensures DecodeStanza(ExampleBbb) ==
      map["param1" := Scalar("value11"), "param2" := Scalar("value22"), "disabled" := Scalar("0"), "index" := Scalar("default"),
          "multiValue" := List(["value1", "value2"]), "multiValue2" := List(["value3", "value4"])]
  {
    var m := Assign(map[], AsList(ExampleBbb.param), ParamName, ParamValue);
    ExampleBbbParams();
    ExampleBbbLists(m);
    assert DecodeStanza(ExampleBbb) == Assign(m, AsList(ExampleBbb.paramList), ListName, ListEntry);
  }

  /** The params of the second stanza, in document order. */
  lemma ExampleBbbParams()
    ensures Assign(map[], AsList(ExampleBbb.param), ParamName, ParamValue) ==
      map["param1" := Scalar("value11"), "param2" := Scalar("value22"), "disabled" := Scalar("0"), "index" := Scalar("default")]
  {
    FourAssignments(AsList(ExampleBbb.param), ParamName, ParamValue);
  }

  /** The two `param_list`s of the second stanza, assigned after its params. */
  lemma ExampleBbbLists(m: Stanza)
    ensures Assign(m, AsList(ExampleBbb.paramList), ListName, ListEntry) ==
      m["multiValue" := List(["value1", "value2"])]["multiValue2" := List(["value3", "value4"])]
  {
    var l := AsList(ExampleBbb.paramList);
    assert l == [l[0]] + [l[1]];
    assert ListEntry(l[0]) == List(["value1", "value2"]) && ListEntry(l[1]) == List(["value3", "value4"]);
    AssignConcat(m, [l[0]], [l[1]], ListName, ListEntry);
    AssignOne(m, l[0], ListName, ListEntry);
    AssignOne(m[l[0].name := ListEntry(l[0])], l[1], ListName, ListEntry);
  }

  /** Four elements are four assignments, in order. */
  lemma FourAssignments<T, V>(xs: seq<T>, key: T -> string, val: T -> V)
    requires |xs| == 4
    ensures Assign(map[], xs, key, val) ==
      map[][key(xs[0]) := val(xs[0])][key(xs[1]) := val(xs[1])][key(xs[2]) := val(xs[2])][key(xs[3]) := val(xs[3])]
  {
    var m0: map<string, V> := map[];
    var m1 := m0[key(xs[0]) := val(xs[0])];
    var m2 := m1[key(xs[1]) := val(xs[1])];
    var m3 := m2[key(xs[2]) := val(xs[2])];
    assert xs == [xs[0]] + [xs[1]] + [xs[2]] + [xs[3]];
    AssignOne(m0, xs[0], key, val);
    AssignConcat(m0, [xs[0]], [xs[1]], key, val);
    AssignOne(m1, xs[1], key, val);
    AssignConcat(m0, [xs[0]] + [xs[1]], [xs[2]], key, val);
    AssignOne(m2, xs[2], key, val);
    AssignConcat(m0, [xs[0]] + [xs[1]] + [xs[2]], [xs[3]], key, val);
    AssignOne(m3, xs[3], key, val);
  }

  /** The documented example's stanzas and their children all arrive as arrays, so the written parser accepts it. */
  lemma ExampleAccepted()
    ensures ParseAsWritten(ExampleInput) == Ok(Parse(ExampleInput))
  {
    var xs := AsList(ExampleInput.configuration);
    assert |xs| == 2 && ChildrenIterable(xs[0]) && ChildrenIterable(xs[1]);
    assert forall i :: 0 <= i < |xs| ==> ChildrenIterable(xs[i]);
  }

  /** The documented example decodes to its two inputs, in document order. */
  lemma ExampleInputs()
    ensures Parse(ExampleInput).inputs == map["foobar://aaa" := DecodeStanza(ExampleAaa), "foobar://bbb" := DecodeStanza(ExampleBbb)]
  {
    var xs := AsList(ExampleInput.configuration);
    assert xs == [ExampleAaa] + [ExampleBbb];
    AssignConcat(map[], [ExampleAaa], [ExampleBbb], StanzaName, DecodeStanza);
    AssignOne(map[], ExampleAaa, StanzaName, DecodeStanza);
    AssignOne(map["foobar://aaa" := DecodeStanza(ExampleAaa)], ExampleBbb, StanzaName, DecodeStanza);
  }

  /** What the documented example decodes to: its metadata and two inputs, the second with two lists. */
  const ExampleDecoded := InputDefinition(
    map[
      "foobar://aaa" := map["param1" := Scalar("value1"), "param2" := Scalar("value2"),
                            "disabled" := Scalar("0"), "index" := Scalar("default")],
      "foobar://bbb" := map["param1" := Scalar("value11"), "param2" := Scalar("value22"),
                            "disabled" := Scalar("0"), "index" := Scalar("default"),
                            "multiValue" := List(["value1", "value2"]), "multiValue2" := List(["value3", "value4"])]],
    Meta(Some("/opt/splunk/var/lib/splunk/modinputs"), Some("tiny"), Some("https://127.0.0.1:8089"), Some("123102983109283019283")))

  /** The documented example is accepted by the parser as written and decodes to its two inputs and its metadata. */
  lemma DocumentedExample()
    ensures ParseAsWritten(ExampleInput) == Ok(ExampleDecoded)
  {
    ExampleAccepted();
    ExampleInputs();
    ExampleAaaDecodes();
    ExampleBbbDecodes();
  }
}

=== FILE: js.dfy ===
/** The JavaScript objects the encoders build, and `setProp` from the utilities file. */
module JsObject {

  /**
   * A JavaScript value as the XML serializer sees it. `Undefined` is a value a key
   * may hold; a key that is absent from an object reads as `Undefined` too.
   */
  datatype JVal =
    | Undefined
    | Null
    | Str(s: string)
    | Num(n: int)
    | Bool(b: bool)
    | Arr(items: seq<JVal>)
    | Object(fields: map<string, JVal>)

  /** A plain object; key order is not modelled. */
  type Obj = map<string, JVal>

  /** `obj[key]`. */
  function Get(obj: Obj, key: string): JVal {
    if key in obj then obj[key] else Undefined
  }

  /** `obj[key] !== undefined`. */
  predicate Defined(obj: Obj, key: string) {
    Get(obj, key) != Undefined
  }

  /** Which XML serializer convention an object is meant for. */
  datatype Dialect =
    | Legacy   // attributeNamePrefix "@_", used by the class-based snapshot
    | Current  // attributeNamePrefix "@", used by the XmlStream snapshot

  function AttrPrefix(d: Dialect): string {
    match d
    case Legacy => "@_"
    case Current => "@"
  }

  /** The key under which the serializer of dialect `d` reads attribute `name`. */
  function Attr(d: Dialect, name: string): string {
    AttrPrefix(d) + name
  }

  /**
   * `setProp(obj, key)`: the object spread `...setProp(obj, key)` contributes
   * `{key: obj[key]}` when that value is defined and nothing otherwise.
   */
  function SetProp(obj: Obj, key: string): (r: Obj)
    ensures key in r <==> Defined(obj, key)
    ensures r.Keys <= {key}
    ensures key in r ==> r[key] == obj[key]
  {
    if Defined(obj, key) then map[key := obj[key]] else map[]
  }

  /**
   * The object spread of `setProp(obj, k)` for every `k` in `keys`, in order.
   */
  function SpreadProps(obj: Obj, keys: seq<string>): (r: Obj)
    ensures forall k :: k in r <==> k in keys && Defined(obj, k)
    ensures forall k :: k in r ==> r[k] == Get(obj, k)
    decreases |keys|
  {
    if keys == [] then map[]
    else SpreadProps(obj, keys[..|keys| - 1]) + SetProp(obj, keys[|keys| - 1])
  }

  /**
   * `{ [fixed]: obj[fixed], ...setProp(obj, k) for k of keys }`: the shape shared by
   * the normalisers of the object-based snapshot.
   */
  function Pick(obj: Obj, fixed: string, keys: seq<string>): (r: Obj)
    requires fixed !in keys
    ensures fixed in r && r[fixed] == Get(obj, fixed)
    ensures forall k :: k in keys ==> (k in r <==> Defined(obj, k))
    ensures forall k :: k in r && k != fixed ==> k in keys && r[k] == Get(obj, k)
  {
    map[fixed := Get(obj, fixed)] + SpreadProps(obj, keys)
  }

  /** Picking from a picked object changes nothing. */
  lemma PickIdempotent(obj: Obj, fixed: string, keys: seq<string>)
    requires fixed !in keys
    ensures Pick(Pick(obj, fixed, keys), fixed, keys) == Pick(obj, fixed, keys)
  {
    var n := Pick(obj, fixed, keys);
    var nn := Pick(n, fixed, keys);
    forall k | k in n ensures k in nn && nn[k] == n[k] {
      if k != fixed {
        assert Defined(n, k);
      }
    }
    assert forall k :: k in nn ==> k in n;
  }

  /** `{ error: { message } }`: the document both runners write when validation fails. */
  function ErrorDocument(message: string): JVal {
    Object(map["error" := Object(map["message" := Str(message)])])
  }
}

=== FILE: modularinput.dfy ===
/**
 * `ModularInputs` (modularinput.ts): the class-based runner. `runScript` picks a mode
 * from the command-line arguments; streaming runs every configured input through the
 * `start`/`streamEvents`/`end` hooks and then closes the event stream.
 */
module ModularInput {
  import opened Base
  import opened JsObject
  import Text
  import Definition
  import InputDefinition
  import ValidationDefinition
  import Event
  import EventWriter
  import Scheme

  /** The mode `runScript` chooses. */
  datatype Invocation = StreamInvocation | SchemeInvocation | ValidateInvocation | InvalidInvocation

  /**
   * Exactly one argument streams; otherwise the second argument, compared case-insensitively,
   * selects `--scheme` and then `--validate-arguments`; anything else is invalid.
   */
  function Classify(args: seq<string>): (c: Invocation)
    ensures c == StreamInvocation <==> |args| == 1
    ensures c == SchemeInvocation <==> |args| >= 2 && Text.EqualsIgnoringCase(args[1], "--scheme")
    ensures c == ValidateInvocation <==> |args| >= 2 && Text.EqualsIgnoringCase(args[1], "--validate-arguments")
    ensures c == InvalidInvocation <==>
      |args| == 0 ||
      (|args| >= 2 && !Text.EqualsIgnoringCase(args[1], "--scheme") && !Text.EqualsIgnoringCase(args[1], "--validate-arguments"))
  {
    if |args| == 1 then StreamInvocation
    else if |args| >= 2 && Text.EqualsIgnoringCase(args[1], "--scheme") then SchemeInvocation
    else if |args| >= 2 && Text.EqualsIgnoringCase(args[1], "--validate-arguments") then ValidateInvocation
    else InvalidInvocation
  }

  /** The flags match whatever their letter case. */
  lemma FlagsIgnoreCase(program: string)
    ensures Classify([program, "--SCHEME"]) == SchemeInvocation
    ensures Classify([program, "--Validate-Arguments"]) == ValidateInvocation
    ensures Classify([program, "--scheme", "extra"]) == SchemeInvocation
    ensures Classify([program, "scheme"]) == InvalidInvocation
  {
    assert Text.EqualsIgnoringCase("--SCHEME", "--scheme");
    assert Text.EqualsIgnoringCase("--Validate-Arguments", "--validate-arguments");
    assert !Text.EqualsIgnoringCase("scheme", "--validate-arguments");
  }

  /** `Array.prototype.join()` with its default separator `,`. */
  function Join(args: seq<string>): (r: string)
    ensures |args| == 1 ==> r == args[0]
    ensures |args| == 0 ==> r == ""
    ensures |args| >= 2 ==> r == args[0] + "," + Join(args[1..])
    decreases |args|
  {
    if |args| == 0 then ""
    else if |args| == 1 then args[0]
    else
      var init, last := args[..|args| - 1], args[|args| - 1];
      var r := Join(init) + "," + last;
      if |args| == 2 then r
      else
        var tail := args[1..];
        assert init[1..] == tail[..|tail| - 1] && tail[|tail| - 1] == last;
        assert Join(tail) == Join(init[1..]) + "," + last;
        assert Join(init) == args[0] + "," + Join(init[1..]);
        r
  }

  function InvalidMessage(args: seq<string>): string {
    "Invalid arguments to modular input script: " + Join(args) + "\n"
  }

  /**
   * The order `Object.keys` lists the decoded inputs in: each stanza name once, at its
   * first occurrence in the document. Stanza names are taken not to be array indices
   * (Splunk sends `scheme://name`); `Object.keys` would list such names first, in
   * numeric order.
   */
  function InputNames(xs: seq<Definition.StanzaXml>): (r: seq<string>)
    ensures forall n :: n in r <==> n in Definition.NamesOf(xs, Definition.StanzaName)
    ensures forall i, j :: 0 <= i < j < |r| ==> r[i] != r[j]
    decreases |xs|
  {
    if xs == [] then []
    else
      var prev := InputNames(xs[..|xs| - 1]);
      var n := xs[|xs| - 1].name;
      if n in prev then prev else prev + [n]
  }

  /** What an input's `streamEvents` does: the events it writes, in order, then how it settles. */
  datatype Script = Script(events: seq<Event.Event>, outcome: Outcome)

  /**
   * The subclass's hooks. `scheme` is `None` when `getScheme` returns a falsy value
   * (a `getScheme` that throws is not modelled); hooks the subclass does not override
   * resolve (`Done`).
   */
  datatype Hooks = Hooks(
    start: (string, Definition.Stanza) -> Outcome,
    streamEvents: (string, Definition.Stanza) -> Script,
    end: (string, Definition.Stanza) -> Outcome,
    scheme: Option<Scheme.Scheme>,
    validateInput: ValidationDefinition.ValidationDefinition -> Outcome)

  /** A hook invocation, in the order they happen. */
  datatype HookCall = Started(name: string) | Streamed(name: string) | Ended(name: string)

  /** The chunks appended after position `from`: none of them closes the stream. */
  predicate NoCloseAfter(out: seq<EventWriter.Chunk>, from: nat) {
    forall i :: from <= i < |out| ==> out[i] != EventWriter.StreamClose
  }

  /** Two appends without a closing tag are one append without a closing tag. */
  lemma AppendedWithoutClose(a: seq<EventWriter.Chunk>, b: seq<EventWriter.Chunk>, c: seq<EventWriter.Chunk>)
    requires |a| <= |b| && b[..|a|] == a && NoCloseAfter(b, |a|)
    requires |b| <= |c| && c[..|b|] == b && NoCloseAfter(c, |b|)
    ensures c[..|a|] == a && NoCloseAfter(c, |a|)
  {
    assert c[..|a|] == c[..|b|][..|a|];
    forall i | |a| <= i < |b| ensures c[i] != EventWriter.StreamClose {
      assert c[i] == c[..|b|][i];
    }
  }

  /** Every one of `events` serialises. */
  predicate EventsSerialize(events: seq<Event.Event>, stringify: string -> string, serialize: EventWriter.Serializer) {
    forall i :: 0 <= i < |events| ==> serialize(Object(Event.ToXmlObject(events[i], stringify))).Some?
  }

  lemma EventsSerializeCons(events: seq<Event.Event>, stringify: string -> string, serialize: EventWriter.Serializer)
    requires events != []
    ensures EventsSerialize(events, stringify, serialize) <==>
      serialize(Object(Event.ToXmlObject(events[0], stringify))).Some? && EventsSerialize(events[1..], stringify, serialize)
  {
    assert forall i :: 1 <= i < |events| ==> events[1..][i - 1] == events[i];
  }

  /** An input's events, written in order; the first serializer failure propagates out of `streamEvents`. */
  function WriteEvents(w: EventWriter.Writer, events: seq<Event.Event>, stringify: string -> string, serialize: EventWriter.Serializer): (r: (EventWriter.Writer, Outcome))
    ensures |w.out| <= |r.0.out| && r.0.out[..|w.out|] == w.out
    ensures NoCloseAfter(r.0.out, |w.out|)
    ensures r.0.headerWritten <==> w.headerWritten || |events| > 0
    ensures r.1 == Done <==> EventsSerialize(events, stringify, serialize)
    decreases |events|
  {
    if events == [] then (w, Done)
    else
      var step := EventWriter.WriteEvent(w, events[0], stringify, serialize);
      EventWriter.WriteEventSerializes(w, events[0], stringify, serialize);
      EventsSerializeCons(events, stringify, serialize);
      if step.1.Failed? then step
      else
        var rest := WriteEvents(step.0, events[1..], stringify, serialize);
        AppendedWithoutClose(w.out, step.0.out, rest.0.out);
        rest
  }

  /** The three hooks of one input, in order. */
  function AllHooks(name: string): seq<HookCall> {
    [Started(name), Streamed(name), Ended(name)]
  }

  /**
   * One input succeeds: `start` resolves, every event its `streamEvents` writes
   * serialises, `streamEvents` itself resolves, and `end` resolves.
   */
  predicate InputSucceeds(h: Hooks, name: string, conf: Definition.Stanza, stringify: string -> string, serialize: EventWriter.Serializer) {
    && h.start(name, conf) == Done
    && EventsSerialize(h.streamEvents(name, conf).events, stringify, serialize)
    && h.streamEvents(name, conf).outcome == Done
    && h.end(name, conf) == Done
  }

  /**
   * `proccessInput(name, eventWriter)`: `start`, then `streamEvents`, then `end`; a
   * failing step stops the input before the next hook is called.
   */
  function ProcessInput(h: Hooks, name: string, conf: Definition.Stanza, w: EventWriter.Writer, stringify: string -> string, serialize: EventWriter.Serializer): (r: (EventWriter.Writer, Outcome, seq<HookCall>))
    ensures 1 <= |r.2| <= 3 && r.2 == AllHooks(name)[..|r.2|]
    ensures |r.2| < 3 ==> r.1.Failed?
    ensures r.1 == Done ==> r.2 == AllHooks(name)
    ensures |r.2| == 3 ==> h.start(name, conf) == Done && h.streamEvents(name, conf).outcome == Done && r.1 == h.end(name, conf)
    ensures h.start(name, conf).Failed? ==> r == (w, h.start(name, conf), [Started(name)])
    ensures |w.out| <= |r.0.out| && r.0.out[..|w.out|] == w.out && NoCloseAfter(r.0.out, |w.out|)
    ensures r.1 == Done <==> InputSucceeds(h, name, conf, stringify, serialize)
  {
    match h.start(name, conf)
    case Failed(e) => (w, Failed(e), [Started(name)])
    case Done =>
      var streamed := StreamInput(h, name, conf, w, stringify, serialize);
      if streamed.1.Failed? then (streamed.0, streamed.1, [Started(name), Streamed(name)])
      else (streamed.0, h.end(name, conf), AllHooks(name))
  }

  /** The `streamEvents` hook of one input: its events written, then its own outcome. */
  function StreamInput(h: Hooks, name: string, conf: Definition.Stanza, w: EventWriter.Writer, stringify: string -> string, serialize: EventWriter.Serializer): (r: (EventWriter.Writer, Outcome))
    ensures r.1 == Done <==>
      EventsSerialize(h.streamEvents(name, conf).events, stringify, serialize) && h.streamEvents(name, conf).outcome == Done
    ensures |w.out| <= |r.0.out| && r.0.out[..|w.out|] == w.out && NoCloseAfter(r.0.out, |w.out|)
  {
    var script := h.streamEvents(name, conf);
    var written := WriteEvents(w, script.events, stringify, serialize);
    (written.0, if written.1.Failed? then written.1 else script.outcome)
  }

  /** The hook calls of a run in which every input succeeds. */
  function HooksOf(names: seq<string>): (r: seq<HookCall>)
    ensures |r| == 3 * |names|
    ensures forall i :: 0 <= i < |names| ==> r[3 * i..3 * i + 3] == AllHooks(names[i])
    decreases |names|
  {
    if names == [] then []
    else
      var rest := HooksOf(names[1..]);
      var r := AllHooks(names[0]) + rest;
      assert forall i :: 1 <= i < |names| ==> r[3 * i..3 * i + 3] == rest[3 * (i - 1)..3 * (i - 1) + 3] by {
        forall i | 1 <= i < |names| ensures r[3 * i..3 * i + 3] == rest[3 * (i - 1)..3 * (i - 1) + 3] {
          assert 3 * i == 3 + 3 * (i - 1);
        }
      }
      assert forall i :: 1 <= i < |names| ==> names[1..][i - 1] == names[i];
      r
  }

  /** Every input in `names` has a configuration and succeeds. */
  predicate AllSucceed(h: Hooks, names: seq<string>, inputs: map<string, Definition.Stanza>, stringify: string -> string, serialize: EventWriter.Serializer) {
    forall n :: n in names ==> n in inputs && InputSucceeds(h, n, inputs[n], stringify, serialize)
  }

  lemma AllSucceedCons(h: Hooks, names: seq<string>, inputs: map<string, Definition.Stanza>, stringify: string -> string, serialize: EventWriter.Serializer)
    requires names != [] && names[0] in inputs
    ensures AllSucceed(h, names, inputs, stringify, serialize) <==>
      InputSucceeds(h, names[0], inputs[names[0]], stringify, serialize) && AllSucceed(h, names[1..], inputs, stringify, serialize)
  {
    assert forall n :: n in names <==> n == names[0] || n in names[1..];
  }

  /** The inputs one after another; the first failure ends the run. */
  function ProcessEach(h: Hooks, names: seq<string>, inputs: map<string, Definition.Stanza>, w: EventWriter.Writer, stringify: string -> string, serialize: EventWriter.Serializer): (r: (EventWriter.Writer, Outcome, seq<HookCall>))
    requires forall n :: n in names ==> n in inputs
    ensures |w.out| <= |r.0.out| && r.0.out[..|w.out|] == w.out && NoCloseAfter(r.0.out, |w.out|)
    ensures r.1 == Done ==> r.2 == HooksOf(names)
    ensures r.1 == Done <==> AllSucceed(h, names, inputs, stringify, serialize)
    ensures names != [] ==> |r.2| >= 1 && r.2[0] == Started(names[0])
    decreases |names|
  {
    if names == [] then (w, Done, [])
    else
      var first := ProcessInput(h, names[0], inputs[names[0]], w, stringify, serialize);
      if first.1.Failed? then first
      else
        var rest := ProcessEach(h, names[1..], inputs, first.0, stringify, serialize);
        AppendedWithoutClose(w.out, first.0.out, rest.0.out);
        AllSucceedCons(h, names, inputs, stringify, serialize);
        assert first.2 == AllHooks(names[0]);
        (rest.0, rest.1, first.2 + rest.2)
  }

  /**
   * `processAllInputs(eventWriter)` with the inputs run one after another: every input,
   * then `close()`, and a failure rethrown after the close. `</stream>` comes last on a
   * successful run; on a failing one, the concurrent inputs of `Promise.all` may still
   * write after it, which this sequential reading does not show.
   */
  function ProcessAllInputs(h: Hooks, names: seq<string>, inputs: map<string, Definition.Stanza>, w: EventWriter.Writer, stringify: string -> string, serialize: EventWriter.Serializer): (r: (EventWriter.Writer, Outcome, seq<HookCall>))
    requires forall n :: n in names ==> n in inputs
    ensures |r.0.out| == |ProcessEach(h, names, inputs, w, stringify, serialize).0.out| + 1
    ensures |w.out| < |r.0.out| && r.0.out[..|w.out|] == w.out
    ensures r.0.out[|r.0.out| - 1] == EventWriter.StreamClose
    ensures forall i :: |w.out| <= i < |r.0.out| - 1 ==> r.0.out[i] != EventWriter.StreamClose
    ensures r.1 == Done ==> r.2 == HooksOf(names)
    ensures r.1 == Done <==> AllSucceed(h, names, inputs, stringify, serialize)
  {
    var each := ProcessEach(h, names, inputs, w, stringify, serialize);
    var closed := EventWriter.Close(each.0);
    assert closed.out[..|w.out|] == closed.out[..|each.0.out|][..|w.out|];
    (closed, each.1, each.2)
  }

  /** How the promise `runScript` returns settles: `[error, status]`, resolved or rejected. */
  datatype StepResult = StepResult(rejected: bool, error: Option<string>, status: int)

  /** The documents `runScript` may read, the event payload stringifier and the serializer. */
  datatype Env = Env(
    input: Result<Definition.InputXml>,
    items: Result<Definition.ItemsXml>,
    stringify: string -> string,
    serialize: EventWriter.Serializer)

  /**
   * The streaming branch once the definition is decoded: process every input, then
   * settle `[undefined, 0]` if all of them succeeded and `[e, 1]` otherwise. The closing
   * tag is the last chunk only under the sequential reading of `Promise.all`.
   */
  function RunInputs(h: Hooks, names: seq<string>, d: InputDefinition.InputDefinition, w: EventWriter.Writer, stringify: string -> string, serialize: EventWriter.Serializer): (r: (StepResult, EventWriter.Writer, seq<HookCall>))
    requires forall n :: n in names ==> n in d.inputs
    ensures |r.1.out| > |w.out| && r.1.out[..|w.out|] == w.out && r.1.out[|r.1.out| - 1] == EventWriter.StreamClose
    ensures r.0.status == 0 || r.0.status == 1
    ensures r.0.status == 0 <==> !r.0.rejected
    ensures r.0.status == 0 <==> AllSucceed(h, names, d.inputs, stringify, serialize)
    ensures r.0.status == 0 ==> r.0.error.None? && r.2 == HooksOf(names)
  {
    var all := ProcessAllInputs(h, names, d.inputs, w, stringify, serialize);
    match all.1
    case Done => (StepResult(false, None, 0), all.0, all.2)
    case Failed(e) => (StepResult(true, Some(e), 1), all.0, all.2)
  }

  /** The inputs of a decoded `<input>` document, in the order `Object.keys` lists them. */
  function NamesOfInput(x: Definition.InputXml): (r: seq<string>)
    ensures forall n :: n in r ==> n in InputDefinition.Parse(x).inputs
  {
    InputNames(Definition.AsList(x.configuration))
  }

  /**
   * Streaming mode: read and decode the `<input>` document with the parser as written,
   * then process every input. A read or decode failure settles `[e, 1]` with nothing
   * written, and so does a document whose stanzas did not arrive as an array.
   */
  function RunStreaming(h: Hooks, env: Env, w: EventWriter.Writer): (r: (StepResult, EventWriter.Writer, seq<HookCall>))
    ensures env.input.Err? ==> r == (StepResult(true, Some(env.input.message), 1), w, [])
    ensures env.input.Ok? && InputDefinition.ParseAsWritten(env.input.value).Err? ==>
      r == (StepResult(true, Some(InputDefinition.ParseAsWritten(env.input.value).message), 1), w, [])
    ensures r.0.status == 0 || r.0.status == 1
    ensures r.0.status == 0 <==> !r.0.rejected
    ensures r.0.status == 0 <==>
      && env.input.Ok? && InputDefinition.ParseAsWritten(env.input.value).Ok?
      && AllSucceed(h, NamesOfInput(env.input.value), InputDefinition.Parse(env.input.value).inputs, env.stringify, env.serialize)
    ensures r.0.status == 0 ==> r.0.error.None? && r.2 == HooksOf(NamesOfInput(env.input.value))
  {
    match env.input
    case Err(e) => (StepResult(true, Some(e), 1), w, [])
    case Ok(x) =>
      match InputDefinition.ParseAsWritten(x)
      case Err(e) => (StepResult(true, Some(e), 1), w, [])
      case Ok(d) => RunInputs(h, NamesOfInput(x), d, w, env.stringify, env.serialize)
  }

  /**
   * Streaming mode with lone `<stanza>`, `<param>` and `<param_list>` objects read as
   * one-element lists: every readable document is processed, and the stream closed
   * (last, under the sequential reading of `Promise.all`).
   */
  function RunStreamingCorrected(h: Hooks, env: Env, w: EventWriter.Writer): (r: (StepResult, EventWriter.Writer, seq<HookCall>))
    ensures env.input.Err? ==> r == (StepResult(true, Some(env.input.message), 1), w, [])
    ensures env.input.Ok? ==> |r.1.out| > |w.out| && r.1.out[|r.1.out| - 1] == EventWriter.StreamClose
    ensures r.0.status == 0 <==> !r.0.rejected
    ensures r.0.status == 0 <==>
      env.input.Ok? && AllSucceed(h, NamesOfInput(env.input.value), InputDefinition.Parse(env.input.value).inputs, env.stringify, env.serialize)
    ensures r.0.status == 0 ==> r.0.error.None? && r.2 == HooksOf(NamesOfInput(env.input.value))
  {
    match env.input
    case Err(e) => (StepResult(true, Some(e), 1), w, [])
    case Ok(x) => RunInputs(h, NamesOfInput(x), InputDefinition.Parse(x), w, env.stringify, env.serialize)
  }

  /**
   * Scheme mode: a missing scheme settles `[null, 1]`; a written scheme document
   * settles `[null, 0]`, but as a rejection; a serializer failure `[e, 1]`.
   */
  function RunScheme(h: Hooks, env: Env, w: EventWriter.Writer): (r: (StepResult, EventWriter.Writer))
    ensures r.0.rejected
    ensures h.scheme.None? ==> r == (StepResult(true, None, 1), w)
    ensures h.scheme.Some? ==>
      var doc := env.serialize(Object(Scheme.ToXmlObject(h.scheme.value)));
      && (r.0.status == 0 <==> doc.Some?)
      && (doc.Some? ==> r.1.out == w.out + [EventWriter.DocumentXml(doc.value)] && r.0.error.None?)
      && (doc.None? ==> r.1 == w)
    ensures r.1.headerWritten == w.headerWritten
  {
    match h.scheme
    case None => (StepResult(true, None, 1), w)
    case Some(sc) =>
      var written := EventWriter.WriteXMLDocument(w, Object(Scheme.ToXmlObject(sc)), env.serialize);
      match written.1
      case Done => (StepResult(true, None, 0), written.0)
      case Failed(e) => (StepResult(true, Some(e), 1), written.0)
  }

  /**
   * Validation mode: read and decode `<items>`, call `validateInput`. Any failure on
   * the way writes an error document with its message and settles `[err, 1]`, or
   * `[e, 1]` when that document cannot be serialised.
   */
  function RunValidation(h: Hooks, env: Env, w: EventWriter.Writer): (r: (StepResult, EventWriter.Writer))
    ensures var verdict := match env.items
        case Err(e) => Failed(e)
        case Ok(items) => h.validateInput(ValidationDefinition.Parse(items));
      && (verdict == Done ==> r == (StepResult(false, None, 0), w))
      && (verdict.Failed? ==> r.0.rejected && r.0.status == 1)
      && (verdict.Failed? && env.serialize(ErrorDocument(verdict.message)).Some? ==>
            r.0.error == Some(verdict.message) &&
            r.1.out == w.out + [EventWriter.DocumentXml(env.serialize(ErrorDocument(verdict.message)).value)])
    ensures r.1.headerWritten == w.headerWritten
  {
    var verdict := match env.items
      case Err(e) => Failed(e)
      case Ok(items) => h.validateInput(ValidationDefinition.Parse(items));
    match verdict
    case Done => (StepResult(false, None, 0), w)
    case Failed(m) =>
      var written := EventWriter.WriteXMLDocument(w, ErrorDocument(m), env.serialize);
      match written.1
      case Done => (StepResult(true, Some(m), 1), written.0)
      case Failed(e) => (StepResult(true, Some(e), 1), written.0)
  }

  /** `runScript(modularInput, args, eventWriter, inputStream)`. */
  function RunScript(args: seq<string>, h: Hooks, env: Env, w: EventWriter.Writer): (r: (StepResult, EventWriter.Writer, seq<HookCall>))
    ensures r.0.status == 0 || r.0.status == 1
    ensures !r.0.rejected ==> r.0.status == 0 && r.0.error.None?
    ensures r.0.rejected && r.0.status == 0 ==> Classify(args) == SchemeInvocation
    ensures Classify(args) == InvalidInvocation ==> r == (StepResult(true, Some(InvalidMessage(args)), 1), w, [])
    ensures Classify(args) != StreamInvocation ==> r.2 == [] && r.1.headerWritten == w.headerWritten
  {
    match Classify(args)
    case StreamInvocation => RunStreaming(h, env, w)
    case SchemeInvocation =>
      var scheme := RunScheme(h, env, w);
      (scheme.0, scheme.1, [])
    case ValidateInvocation =>
      var validation := RunValidation(h, env, w);
      (validation.0, validation.1, [])
    case InvalidInvocation => (StepResult(true, Some(InvalidMessage(args)), 1), w, [])
  }

  lemma {:induction false} WriteEventsKeepsDiscipline(w: EventWriter.Writer, events: seq<Event.Event>, stringify: string -> string, serialize: EventWriter.Serializer)
    requires EventWriter.HeaderDiscipline(w)
    ensures EventWriter.HeaderDiscipline(WriteEvents(w, events, stringify, serialize).0)
    decreases |events|
  {
    if events != [] {
      EventWriter.StepPreserves(w, EventWriter.WriteEventCall(events[0]), stringify, serialize);
      var step := EventWriter.WriteEvent(w, events[0], stringify, serialize);
      if step.1 == Done {
        WriteEventsKeepsDiscipline(step.0, events[1..], stringify, serialize);
      }
    }
  }

  lemma {:induction false} ProcessEachKeepsDiscipline(h: Hooks, names: seq<string>, inputs: map<string, Definition.Stanza>, w: EventWriter.Writer, stringify: string -> string, serialize: EventWriter.Serializer)
    requires forall n :: n in names ==> n in inputs
    requires EventWriter.HeaderDiscipline(w)
    ensures EventWriter.HeaderDiscipline(ProcessEach(h, names, inputs, w, stringify, serialize).0)
    decreases |names|
  {
    if names != [] {
      var conf := inputs[names[0]];
      if h.start(names[0], conf) == Done {
        WriteEventsKeepsDiscipline(w, h.streamEvents(names[0], conf).events, stringify, serialize);
      }
      var first := ProcessInput(h, names[0], conf, w, stringify, serialize);
      if first.1 == Done {
        ProcessEachKeepsDiscipline(h, names[1..], inputs, first.0, stringify, serialize);
      }
    }
  }

  /** Processing every input, then closing, keeps the header discipline. */
  lemma ProcessAllInputsKeepsDiscipline(h: Hooks, names: seq<string>, inputs: map<string, Definition.Stanza>, w: EventWriter.Writer, stringify: string -> string, serialize: EventWriter.Serializer)
    requires forall n :: n in names ==> n in inputs
    requires EventWriter.HeaderDiscipline(w)
    ensures EventWriter.HeaderDiscipline(ProcessAllInputs(h, names, inputs, w, stringify, serialize).0)
  {
    var each := ProcessEach(h, names, inputs, w, stringify, serialize);
    ProcessEachKeepsDiscipline(h, names, inputs, w, stringify, serialize);
    EventWriter.StepPreserves(each.0, EventWriter.CloseCall, stringify, serialize);
  }

  /**
   * The output of a streaming run: header discipline, and `</stream>` last and exactly
   * once. The source guarantees this on a successful run; on a failing one it holds only
   * under the sequential reading of `Promise.all`.
   */
  ghost predicate ClosedOnce(w: EventWriter.Writer) {
    && EventWriter.HeaderDiscipline(w)
    && |w.out| > 0 && w.out[|w.out| - 1] == EventWriter.StreamClose
    && (forall i :: 0 <= i < |w.out| - 1 ==> w.out[i] != EventWriter.StreamClose)
  }

  /**
   * Streaming from a fresh writer: `<stream>` is written at most once and before every
   * event, and `</stream>` comes last, exactly once, whenever the document was read and
   * decoded; otherwise nothing at all is written. The corrected form closes the stream
   * for every readable document. When an input fails, "last" holds only under the
   * sequential reading of `Promise.all`.
   */
  lemma StreamingOutputShape(h: Hooks, env: Env)
    ensures ClosedOnce(RunStreamingCorrected(h, env, EventWriter.New()).1) <==> env.input.Ok?
    ensures ClosedOnce(RunStreaming(h, env, EventWriter.New()).1) <==>
      env.input.Ok? && InputDefinition.ParseAsWritten(env.input.value).Ok?
    ensures !ClosedOnce(RunStreaming(h, env, EventWriter.New()).1) ==> RunStreaming(h, env, EventWriter.New()).1.out == []
  {
    if env.input.Ok? {
      var x := env.input.value;
      StreamingProcessesAll(h, env, EventWriter.New());
      ProcessAllInputsKeepsDiscipline(h, NamesOfInput(x), InputDefinition.Parse(x).inputs, EventWriter.New(), env.stringify, env.serialize);
    }
  }

  /**
   * Streaming a decoded definition is `processAllInputs` over its inputs, in document
   * order; the written parser agrees with the corrected one whenever it accepts the
   * document, and otherwise rejects before any input is processed.
   */
  lemma StreamingProcessesAll(h: Hooks, env: Env, w: EventWriter.Writer)
    requires env.input.Ok?
    ensures var x := env.input.value;
      var names := NamesOfInput(x);
      var inputs := InputDefinition.Parse(x).inputs;
      && (forall n :: n in names ==> n in inputs)
      && RunStreamingCorrected(h, env, w).1 == ProcessAllInputs(h, names, inputs, w, env.stringify, env.serialize).0
      && RunStreamingCorrected(h, env, w).2 == ProcessAllInputs(h, names, inputs, w, env.stringify, env.serialize).2
    ensures InputDefinition.ParseAsWritten(env.input.value).Ok? ==> RunStreaming(h, env, w) == RunStreamingCorrected(h, env, w)
    ensures InputDefinition.ParseAsWritten(env.input.value).Err? ==> RunStreaming(h, env, w).1 == w && RunStreaming(h, env, w).2 == []
  {
  }

  /**
   * A definition without stanzas: the written parser throws, so the run is rejected
   * with status 1 and nothing written; the corrected run writes a lone `</stream>`,
   * with no `<stream>` before it, and resolves.
   */
  lemma NoInputsLoneClose(h: Hooks, env: Env, x: Definition.InputXml)
    requires env.input == Ok(x) && x.configuration == Definition.Absent
    ensures RunStreaming(h, env, EventWriter.New()) == (StepResult(true, Some(InputDefinition.StanzasUndefined), 1), EventWriter.New(), [])
    ensures RunStreamingCorrected(h, env, EventWriter.New()).1.out == [EventWriter.StreamClose]
    ensures RunStreamingCorrected(h, env, EventWriter.New()).0 == StepResult(false, None, 0)
  {
  }

  /**
   * A definition with exactly one stanza: the written parser throws, so no hook is
   * called and nothing is written; the corrected run starts that input first.
   */
  lemma LoneInputNeverProcessed(h: Hooks, env: Env, x: Definition.InputXml, st: Definition.StanzaXml)
    requires env.input == Ok(x) && x.configuration == Definition.Lone(st)
    ensures RunStreaming(h, env, EventWriter.New()) == (StepResult(true, Some(InputDefinition.StanzaNotIterable), 1), EventWriter.New(), [])
    ensures RunStreamingCorrected(h, env, EventWriter.New()).2[0] == Started(st.name)
  {
    assert Definition.AsList(x.configuration) == [st] && [st][..0] == [];
    assert InputNames([st]) == [st.name];
  }
}

=== FILE: scheme.dfy ===
/** The `Scheme` class (scheme.ts): what the script reports to Splunk for `--scheme`. */
module Scheme {
  import opened Base
  import opened JsObject
  import Argument

  /** `SchemeStreamingMode` and the string value of each member. */
  datatype StreamingMode = Simple | Xml

  function ModeName(m: StreamingMode): (r: string)
    ensures r in {"SIMPLE", "XML"}
    ensures m == Simple <==> r == "SIMPLE"
  {
    match m
    case Simple => "SIMPLE"
    case Xml => "XML"
  }

  datatype Scheme = Scheme(
    title: string,
    description: Option<string>,
    useExternalValidation: bool,
    useSingleInstance: bool,
    streamingMode: StreamingMode,
    args: seq<Argument.Argument>)

  /** `new Scheme(title)`: external validation on, one instance per stanza, XML streaming, no arguments. */
  function New(title: string): (s: Scheme)
    ensures s.title == title && s.description.None?
    ensures s.useExternalValidation && !s.useSingleInstance
    ensures s.streamingMode == Xml && s.args == []
  {
    Scheme(title, None, true, false, Xml, [])
  }

  /**
   * `addArgument(arg)`: appends a present argument and ignores a missing one
   * (`None` stands for `null`/`undefined`, the only falsy values an argument can be).
   */
  function AddArgument(s: Scheme, arg: Option<Argument.Argument>): (r: Scheme)
    ensures arg.Some? ==> |r.args| == |s.args| + 1 && r.args[|s.args|] == arg.value
    ensures arg.None? ==> r == s
    ensures r.args[..|s.args|] == s.args
    ensures r.(args := s.args) == s
  {
    match arg
    case Some(a) => s.(args := s.args + [a])
    case None => s
  }

  /**
   * `toXmlObject()`: title, the two flags and the streaming mode always, the
   * description when truthy. The arguments are not part of the object.
   */
  function ToXmlObject(s: Scheme): (r: Obj)
    ensures forall k :: k in r <==>
      || k in {"title", "use_external_validation", "use_single_instance", "streaming_mode"}
      || (k == "description" && Argument.Truthy(s.description))
    ensures Argument.Truthy(s.description) ==> r["description"] == Str(s.description.value)
  {
    var always := map[
      "title" := Str(s.title),
      "use_external_validation" := Bool(s.useExternalValidation),
      "use_single_instance" := Bool(s.useSingleInstance),
      "streaming_mode" := Str(ModeName(s.streamingMode))];
    if Argument.Truthy(s.description) then always["description" := Str(s.description.value)] else always
  }

  /** The object reflects the scheme's own title, flags and mode, and ignores its arguments. */
  lemma ToXmlObjectEntries(s: Scheme, extra: seq<Argument.Argument>)
    ensures var r := ToXmlObject(s);
      && r["title"] == Str(s.title)
      && r["use_external_validation"] == Bool(s.useExternalValidation)
      && r["use_single_instance"] == Bool(s.useSingleInstance)
      && r["streaming_mode"].Str? && (r["streaming_mode"].s == "SIMPLE" <==> s.streamingMode == Simple)
      && ToXmlObject(s.(args := extra)) == r
  {
  }

  /** A fresh scheme with arguments added reports the defaults and no description. */
  lemma DefaultSchemeObject(title: string, a: Argument.Argument)
    ensures var r := ToXmlObject(AddArgument(New(title), Some(a)));
      && "description" !in r
      && r["use_external_validation"] == Bool(true)
      && r["use_single_instance"] == Bool(false)
      && r["streaming_mode"] == Str("XML")
  {
    ToXmlObjectEntries(AddArgument(New(title), Some(a)), []);
  }
}

=== FILE: scheme_model.dfy ===
/** `normalizeScheme` (models/scheme.ts): the object-based scheme of the XmlStream runner. */
module SchemeModel {
  import opened JsObject
  import ArgumentModel

  /**
   * A scheme object: its own properties, and the argument objects found under
   * `endpoint.args.arg`.
   */
  datatype SchemeDef = SchemeDef(props: Obj, args: seq<Obj>)

  /** The properties `normalizeScheme` copies when defined. */
  function OptionalKeys(): seq<string> {
    ["description", "use_external_validation", "use_single_instance"]
  }

  /**
   * `normalizeScheme(scheme)`: `title` always, each optional property iff defined
   * (so `streaming_mode` and any other property are dropped), and every argument
   * normalised in place.
   */
  function NormalizeScheme(s: SchemeDef): (r: SchemeDef)
    ensures "title" in r.props && r.props["title"] == Get(s.props, "title")
    ensures forall k :: k in OptionalKeys() ==> (k in r.props <==> Defined(s.props, k))
    ensures forall k :: k in r.props && k != "title" ==> k in OptionalKeys() && r.props[k] == Get(s.props, k)
    ensures "streaming_mode" !in r.props
    ensures |r.args| == |s.args|
    ensures forall i :: 0 <= i < |s.args| ==> r.args[i] == ArgumentModel.NormalizeArgument(s.args[i])
  {
    SchemeDef(
      Pick(s.props, "title", OptionalKeys()),
      seq(|s.args|, i requires 0 <= i < |s.args| => ArgumentModel.NormalizeArgument(s.args[i])))
  }

  /** Normalising twice changes nothing, arguments included. */
  lemma NormalizeSchemeIdempotent(s: SchemeDef)
    ensures NormalizeScheme(NormalizeScheme(s)) == NormalizeScheme(s)
  {
    var n := NormalizeScheme(s);
    var nn := NormalizeScheme(n);
    PickIdempotent(s.props, "title", OptionalKeys());
    forall i | 0 <= i < |n.args|
      ensures nn.args[i] == n.args[i]
    {
      ArgumentModel.NormalizeArgumentIdempotent(s.args[i]);
    }
  }
}

=== FILE: stream_events.dfy ===
/** `streamEvents` (commands/streamevents.ts): the object-based runner's streaming command. */
module StreamEvents {
  import opened Base
  import opened JsObject
  import Definition
  import EventModel
  import XmlStream

  /**
   * The object the writer callback serialises under `event`: the normalised event,
   * `@unbroken` 1 for a fragment (an `isFragmentEnd` was passed) and 0 otherwise, a
   * `done` marker only on the last fragment, and the stanza attribute.
   */
  function FragmentEvent(event: Obj, stanza: string, isFragmentEnd: Option<bool>): (r: Obj)
    ensures "@stanza" in r && r["@stanza"] == Str(stanza)
    ensures "@unbroken" in r
    ensures isFragmentEnd.Some? ==> r["@unbroken"] == Num(1)
    ensures isFragmentEnd.None? ==> r["@unbroken"] == Num(0)
    ensures "done" in r <==> isFragmentEnd == Some(true)
    ensures "done" in r ==> r["done"] == Null
    ensures forall k :: k != "@stanza" && k != "@unbroken" && k != "done" ==>
      (k in r <==> k in EventModel.NormalizeEvent(event)) &&
      (k in r ==> r[k] == EventModel.NormalizeEvent(event)[k])
  {
    var e := EventModel.NormalizeEvent(event);
    EventModel.NormalizeEventDropsExtras(event, "done");
    var marked := if isFragmentEnd == Some(true) then e["done" := Null] else e;
    marked["@unbroken" := if isFragmentEnd.Some? then Num(1) else Num(0)]["@stanza" := Str(stanza)]
  }

  /** One call of the writer callback: `writter(stanza, event, isFragmentEnd)`. */
  datatype EmitCall = EmitCall(stanza: string, event: Obj, isFragmentEnd: Option<bool>)

  /**
   * What the modular input's `processAllInputs(writter)` does, seen from outside: the
   * writer calls it makes, in order, and how it settles if none of them throws.
   */
  datatype Session = Session(calls: seq<EmitCall>, outcome: Outcome)

  /** The document the writer callback writes for one call. */
  function EventDocument(c: EmitCall): JVal {
    Object(map["event" := Object(FragmentEvent(c.event, c.stanza, c.isFragmentEnd))])
  }

  /** The documents of a session's writer calls, in order. */
  function Documents(calls: seq<EmitCall>): (docs: seq<JVal>)
    ensures |docs| == |calls|
    ensures forall i :: 0 <= i < |calls| ==> docs[i] == EventDocument(calls[i])
  {
    seq(|calls|, i requires 0 <= i < |calls| => EventDocument(calls[i]))
  }

  /**
   * The writer calls in order; a serializer failure is rethrown by the callback and
   * ends the session, with nothing written for the failing call.
   */
  function WriteAll(s: XmlStream.Stream, docs: seq<JVal>, serialize: XmlStream.Serializer): (r: (XmlStream.Stream, Option<string>))
    ensures r.0.tags == s.tags
    ensures |s.out| <= |r.0.out| <= |s.out| + |docs| && r.0.out[..|s.out|] == s.out
    ensures forall i :: |s.out| <= i < |r.0.out| ==> r.0.out[i].ObjectXml?
    ensures r.1.None? <==> |r.0.out| == |s.out| + |docs|
    ensures r.1.None? <==> forall i :: 0 <= i < |docs| ==> serialize(docs[i]).Some?
    decreases |docs|
  {
    if docs == [] then (s, None)
    else
      match XmlStream.WriteObject(s, docs[0], serialize)
      case Err(m) => (s, Some(m))
      case Ok(s1) =>
        var r := WriteAll(s1, docs[1..], serialize);
        assert r.0.out[..|s.out|] == r.0.out[..|s1.out|][..|s.out|];
        assert forall i :: 1 <= i < |docs| ==> docs[i] == docs[1..][i - 1];
        r
  }

  /** The error `def.configuration.stanza.reduce` throws when the stanzas arrived as a lone object. */
  const ReduceFailed := "TypeError: def.configuration.stanza.reduce is not a function"

  /** The error reading `reduce` throws when the document has no `<stanza>` at all. */
  const ReduceOfUndefined := "TypeError: Cannot read properties of undefined (reading 'reduce')"

  /**
   * `def.configuration.stanza.reduce(...)` as written: only an array has `reduce`, so
   * a document with a single `<stanza>` (a lone object) or none fails with a TypeError,
   * each with its own message.
   */
  function StanzaMapAsWritten(c: Definition.Children<Definition.StanzaXml>): (r: Result<map<string, Definition.Stanza>>)
    ensures r.Ok? <==> c.Listed?
    ensures r.Ok? ==> r.value == Definition.StanzaMap(c)
    ensures c.Absent? ==> r == Err(ReduceOfUndefined)
    ensures c.Lone? ==> r == Err(ReduceFailed)
  {
    match c
    case Listed(xs) => Ok(Definition.Assign(map[], xs, Definition.StanzaName, Definition.DecodeStanza))
    case Lone(_) => Err(ReduceFailed)
    case Absent => Err(ReduceOfUndefined)
  }

  /** A definition with exactly one input cannot be streamed as written; the corrected map has that input. */
  lemma LoneStanzaBreaksReduce(x: Definition.StanzaXml)
    ensures StanzaMapAsWritten(Definition.Lone(x)) == Err(ReduceFailed)
    ensures Definition.StanzaMap(Definition.Lone(x)) == map[x.name := Definition.DecodeStanza(x)]
  {
    Definition.StanzaMapOfLone(x);
  }

  /** Open `<stream>` and run the session's writes. */
  function OpenAndWrite(s: XmlStream.Stream, sess: Session, serialize: XmlStream.Serializer): (r: (XmlStream.Stream, Outcome))
    ensures r.0.tags == s.tags + ["stream"]
    ensures |r.0.out| > |s.out| && r.0.out[..|s.out|] == s.out
    ensures r.0.out[|s.out|] == XmlStream.OpenTag("stream", "")
    ensures forall i :: |s.out| < i < |r.0.out| ==> r.0.out[i].ObjectXml?
    ensures forall i :: |s.out| <= i < |r.0.out| ==> !r.0.out[i].CloseTag?
    ensures r.1 == Done <==> sess.outcome == Done && |r.0.out| == |s.out| + 1 + |sess.calls|
  {
    var s1 := XmlStream.Open(s, "stream", None);
    var (s2, failure) := WriteAll(s1, Documents(sess.calls), serialize);
    OpenedThenObjects(s, s1, s2);
    (s2, if failure.Some? then Failed(failure.value) else sess.outcome)
  }

  /** A start tag followed only by objects: the output facts `OpenAndWrite` promises. */
  lemma OpenedThenObjects(s: XmlStream.Stream, s1: XmlStream.Stream, s2: XmlStream.Stream)
    requires s1 == XmlStream.Open(s, "stream", None)
    requires s2.tags == s1.tags && |s1.out| <= |s2.out| && s2.out[..|s1.out|] == s1.out
    requires forall i :: |s1.out| <= i < |s2.out| ==> s2.out[i].ObjectXml?
    ensures s2.tags == s.tags + ["stream"]
    ensures |s2.out| > |s.out| && s2.out[..|s.out|] == s.out
    ensures s2.out[|s.out|] == XmlStream.OpenTag("stream", "")
    ensures forall i :: |s.out| < i < |s2.out| ==> s2.out[i].ObjectXml?
    ensures forall i :: |s.out| <= i < |s2.out| ==> !s2.out[i].CloseTag?
  {
    assert s1.out[|s.out|] == XmlStream.OpenTag("stream", "");
    assert s2.out[..|s.out|] == s2.out[..|s1.out|][..|s.out|];
    assert s2.out[|s.out|] == s2.out[..|s1.out|][|s.out|];
  }

  /**
   * Open `<stream>`, run the session's writes, and close the stream whatever the
   * session did (the `finally` of `processAllInputs(writter)`).
   */
  function RunSession(s: XmlStream.Stream, sess: Session, serialize: XmlStream.Serializer): (r: (XmlStream.Stream, Outcome))
    ensures r.0.tags == s.tags
    ensures |r.0.out| >= |s.out| + 2 && r.0.out[..|s.out|] == s.out
    ensures r.0.out[|s.out|] == XmlStream.OpenTag("stream", "")
    ensures r.0.out[|r.0.out| - 1] == XmlStream.CloseTag("stream")
    ensures forall i :: |s.out| < i < |r.0.out| - 1 ==> r.0.out[i].ObjectXml?
    ensures r.1 == Done <==> sess.outcome == Done && |r.0.out| == |s.out| + 2 + |sess.calls|
  {
    var (s2, outcome) := OpenAndWrite(s, sess, serialize);
    match XmlStream.Close(s2, None)
    case Ok(s3) =>
      assert s3.out[..|s.out|] == s3.out[..|s2.out|][..|s.out|];
      (s3, outcome)
    case Err(m) => (s2, Failed(m))
  }

  /**
   * `streamEvents(xmlstream, input)`: read and decode the `<input>` document, hand the
   * metadata and stanza map to the input, then run its session inside `<stream>`. A
   * read failure writes nothing, and so does a document whose stanzas did not arrive
   * as an array (one stanza or none): `reduce` throws before `<stream>` is opened.
   * Otherwise the command is its corrected form.
   */
  function StreamEvents(
    s: XmlStream.Stream,
    input: Result<Definition.InputXml>,
    session: (Definition.Meta, map<string, Definition.Stanza>) -> Session,
    serialize: XmlStream.Serializer): (r: (XmlStream.Stream, Outcome))
    ensures input.Err? ==> r == (s, Failed(input.message))
    ensures input.Ok? && input.value.configuration.Absent? ==> r == (s, Failed(ReduceOfUndefined))
    ensures input.Ok? && input.value.configuration.Lone? ==> r == (s, Failed(ReduceFailed))
    ensures input.Ok? && input.value.configuration.Listed? ==> r == StreamEventsCorrected(s, input, session, serialize)
  {
    match input
    case Err(m) => (s, Failed(m))
    case Ok(def) =>
      match StanzaMapAsWritten(def.configuration)
      case Err(m) => (s, Failed(m))
      case Ok(stanzas) => RunSession(s, session(Definition.GetInputMeta(def), stanzas), serialize)
  }

  /**
   * `streamEvents` with a lone `<stanza>` read as a one-element list and a missing one
   * as none: every readable document is streamed inside `<stream>`...`</stream>`.
   */
  function StreamEventsCorrected(
    s: XmlStream.Stream,
    input: Result<Definition.InputXml>,
    session: (Definition.Meta, map<string, Definition.Stanza>) -> Session,
    serialize: XmlStream.Serializer): (r: (XmlStream.Stream, Outcome))
    ensures input.Err? ==> r == (s, Failed(input.message))
    ensures input.Ok? ==> r.0.tags == s.tags && |r.0.out| >= |s.out| + 2 && r.0.out[..|s.out|] == s.out
    ensures input.Ok? ==> r.0.out[|s.out|] == XmlStream.OpenTag("stream", "")
    ensures input.Ok? ==> r.0.out[|r.0.out| - 1] == XmlStream.CloseTag("stream")
  {
    match input
    case Err(m) => (s, Failed(m))
    case Ok(def) =>
      RunSession(s, session(Definition.GetInputMeta(def), Definition.StanzaMap(def.configuration)), serialize)
  }

  /** A document configuring exactly one input: the command writes nothing, the corrected one streams it. */
  lemma LoneStanzaStreamsNothing(
    s: XmlStream.Stream,
    def: Definition.InputXml,
    x: Definition.StanzaXml,
    session: (Definition.Meta, map<string, Definition.Stanza>) -> Session,
    serialize: XmlStream.Serializer)
    requires def.configuration == Definition.Lone(x)
    ensures StreamEvents(s, Ok(def), session, serialize) == (s, Failed(ReduceFailed))
    ensures StreamEventsCorrected(s, Ok(def), session, serialize) ==
      RunSession(s, session(Definition.GetInputMeta(def), map[x.name := Definition.DecodeStanza(x)]), serialize)
  {
    Definition.StanzaMapOfLone(x);
  }

  /** Streaming keeps a properly nested output properly nested, in both forms. */
  lemma {:induction false} StreamEventsKeepsNesting(
    s: XmlStream.Stream,
    input: Result<Definition.InputXml>,
    session: (Definition.Meta, map<string, Definition.Stanza>) -> Session,
    serialize: XmlStream.Serializer)
    requires XmlStream.WellNested(s)
    ensures XmlStream.WellNested(StreamEventsCorrected(s, input, session, serialize).0)
    ensures XmlStream.WellNested(StreamEvents(s, input, session, serialize).0)
  {
    if input.Ok? {
      var def := input.value;
      var sess := session(Definition.GetInputMeta(def), Definition.StanzaMap(def.configuration));
      var s1 := XmlStream.Open(s, "stream", None);
      XmlStream.OperationsKeepNesting(s, "stream", None, Null, serialize);
      var s2 := WriteAllKeepsNesting(s1, Documents(sess.calls), serialize);
      assert s2 == OpenAndWrite(s, sess, serialize).0;
      XmlStream.OperationsKeepNesting(s2, "", None, Null, serialize);
    }
  }

  /** The writes keep the output nested; returns the stream they leave. */
  lemma {:induction false} WriteAllKeepsNesting(s: XmlStream.Stream, docs: seq<JVal>, serialize: XmlStream.Serializer)
    returns (s2: XmlStream.Stream)
    requires XmlStream.WellNested(s)
    ensures s2 == WriteAll(s, docs, serialize).0
    ensures XmlStream.WellNested(s2)
    decreases |docs|
  {
    if docs == [] {
      s2 := s;
    } else {
      match XmlStream.WriteObject(s, docs[0], serialize)
      case Err(_) =>
        s2 := s;
      case Ok(s1) =>
        XmlStream.OperationsKeepNesting(s, "", None, docs[0], serialize);
        s2 := WriteAllKeepsNesting(s1, docs[1..], serialize);
    }
  }
}

=== FILE: text.dfy ===
/** String helpers with the semantics of the JavaScript built-ins the adapter uses. */
module Text {

  /** The characters `String.prototype.trim` removes: ECMAScript WhiteSpace and LineTerminator. */
  predicate IsJsSpace(c: char) {
    || c == ' ' || c == '\t' || c == '\n' || c == '\r'
    || c == '\U{000B}' || c == '\U{000C}' || c == '\U{00A0}' || c == '\U{1680}'
    || ('\U{2000}' <= c <= '\U{200A}')
    || c == '\U{2028}' || c == '\U{2029}' || c == '\U{202F}' || c == '\U{205F}'
    || c == '\U{3000}' || c == '\U{FEFF}'
  }

  /** `s` with trailing whitespace removed. */
  function TrimEnd(s: string): (r: string)
    ensures r <= s
    ensures |r| == 0 || !IsJsSpace(r[|r| - 1])
    ensures forall i :: |r| <= i < |s| ==> IsJsSpace(s[i])
    decreases |s|
  {
    if |s| > 0 && IsJsSpace(s[|s| - 1]) then TrimEnd(s[..|s| - 1]) else s
  }

  /** `s` with leading whitespace removed. */
  function TrimStart(s: string): (r: string)
    ensures |r| <= |s| && r == s[|s| - |r|..]
    ensures |r| == 0 || !IsJsSpace(r[0])
    ensures forall i :: 0 <= i < |s| - |r| ==> IsJsSpace(s[i])
    decreases |s|
  {
    if |s| > 0 && IsJsSpace(s[0]) then TrimStart(s[1..]) else s
  }

  /** JavaScript `s.trim()`. */
  function Trim(s: string): string {
    TrimStart(TrimEnd(s))
  }

  /** JavaScript `s.endsWith(suffix)`. */
  predicate EndsWith(s: string, suffix: string) {
    |suffix| <= |s| && s[|s| - |suffix|..] == suffix
  }

  /** Lower-cases the ASCII letters A-Z and leaves every other character alone. */
  function LowerAscii(c: char): char {
    if 'A' <= c <= 'Z' then (c as int + 32) as char else c
  }

  /**
   * `s.toLowerCase() === flag` for a flag of lower-case ASCII letters and `-` without
   * the letter `k`: the only non-ASCII character whose lower-case form is a single
   * ASCII letter is the Kelvin sign (to `k`), so comparing ASCII-lowered characters
   * position by position is exact for such flags.
   */
  predicate EqualsIgnoringCase(s: string, flag: string) {
    |s| == |flag| && forall i :: 0 <= i < |s| ==> LowerAscii(s[i]) == flag[i]
  }
}

=== FILE: time.dfy ===
/**
 * `GetSplunkFormattedTime`, which exists twice (utils.ts and common.ts) with the same
 * body, restricted to a non-negative whole number of milliseconds.
 */
module SplunkTime {
  import opened Base

  /** The time argument: a number of milliseconds, or a `Date` whose `getTime()` is `epochMs`. */
  datatype TimeInput = Millis(ms: nat) | Date(epochMs: nat)

  function MillisOf(t: TimeInput): nat {
    match t
    case Millis(n) => n
    case Date(n) => n
  }

  predicate IsDigit(c: char) {
    '0' <= c <= '9'
  }

  predicate AllDigits(s: string) {
    forall i :: 0 <= i < |s| ==> IsDigit(s[i])
  }

  /** A digit string without superfluous leading zeros, as `Number.prototype.toString` prints. */
  predicate Canonical(s: string) {
    |s| >= 1 && AllDigits(s) && (|s| == 1 || s[0] != '0')
  }

  function DigitChar(d: nat): (c: char)
    requires d < 10
    ensures IsDigit(c)
  {
    ('0' as int + d) as char
  }

  function DigitValue(c: char): (d: nat)
    requires IsDigit(c)
    ensures d < 10
  {
    c as int - '0' as int
  }

  /** The decimal digits of `n`. */
  function DecimalString(n: nat): (s: string)
    ensures Canonical(s)
    decreases n
  {
    if n < 10 then [DigitChar(n)] else DecimalString(n / 10) + [DigitChar(n % 10)]
  }

  /** The number a digit string denotes; the partner of `DecimalString`. */
  function DecimalValue(s: string): nat
    requires AllDigits(s)
    decreases |s|
  {
    if s == [] then 0 else 10 * DecimalValue(s[..|s| - 1]) + DigitValue(s[|s| - 1])
  }

  lemma {:induction false} DecimalValueOfString(n: nat)
    ensures DecimalValue(DecimalString(n)) == n
    decreases n
  {
    if n >= 10 {
      DecimalValueOfString(n / 10);
      var s := DecimalString(n);
      assert s[..|s| - 1] == DecimalString(n / 10);
    }
  }

  lemma {:induction false} CanonicalValuePositive(s: string)
    requires Canonical(s) && s[0] != '0'
    ensures DecimalValue(s) >= 1
    decreases |s|
  {
    if |s| > 1 {
      var p := s[..|s| - 1];
      assert p[0] == s[0];
      CanonicalValuePositive(p);
    }
  }

  lemma {:induction false} StringOfDecimalValue(s: string)
    requires Canonical(s)
    ensures DecimalString(DecimalValue(s)) == s
    decreases |s|
  {
    if |s| > 1 {
      var p := s[..|s| - 1];
      assert p[0] == s[0];
      CanonicalValuePositive(p);
      StringOfDecimalValue(p);
      var v, d := DecimalValue(p), DigitValue(s[|s| - 1]);
      assert DecimalValue(s) == 10 * v + d;
      LastDigit(v, d);
      assert DigitChar(d) == s[|s| - 1];
      assert s == p + [s[|s| - 1]];
    }
  }

  lemma LastDigit(v: nat, d: nat)
    requires d < 10
    ensures (10 * v + d) / 10 == v && (10 * v + d) % 10 == d
  {
  }

  lemma ThreeDigitValue(s: string)
    requires |s| == 3 && AllDigits(s)
    ensures DecimalValue(s) == 100 * DigitValue(s[0]) + 10 * DigitValue(s[1]) + DigitValue(s[2])
  {
    var a, b := s[..1], s[..2];
    assert s[..|s| - 1] == b && b[..|b| - 1] == a && a[..|a| - 1] == [];
    assert DecimalValue(a) == DigitValue(s[0]);
    assert DecimalValue(b) == 10 * DigitValue(s[0]) + DigitValue(s[1]);
  }

  /** The digits of a three-digit number are read back by division and remainder. */
  lemma ThreeDigits(d0: nat, d1: nat, d2: nat)
    requires d0 < 10 && d1 < 10 && d2 < 10
    ensures var n := 100 * d0 + 10 * d1 + d2;
      n / 100 == d0 && n / 10 % 10 == d1 && n % 10 == d2
  {
    LastDigit(10 * d0 + d1, d2);
    LastDigit(d0, d1);
  }

  /** `n` zero-padded to three digits, as the fraction of `toFixed(3)`. */
  function Pad3(n: nat): (s: string)
    requires n < 1000
    ensures |s| == 3 && AllDigits(s) && DecimalValue(s) == n
  {
    var s := [DigitChar(n / 100), DigitChar(n / 10 % 10), DigitChar(n % 10)];
    ThreeDigitValue(s);
    s
  }

  lemma Pad3OfValue(f: string)
    requires |f| == 3 && AllDigits(f)
    ensures DecimalValue(f) < 1000 && Pad3(DecimalValue(f)) == f
  {
    ThreeDigitValue(f);
    var n := DecimalValue(f);
    ThreeDigits(DigitValue(f[0]), DigitValue(f[1]), DigitValue(f[2]));
    var p := Pad3(n);
    assert p[0] == f[0] && p[1] == f[1] && p[2] == f[2];
  }

  /** `(ms / 1000).toFixed(3)` for a whole number of milliseconds. */
  function FormatMillis(ms: nat): (s: string)
    ensures |s| >= 5 && s[|s| - 4] == '.'
    ensures Canonical(s[..|s| - 4]) && AllDigits(s[|s| - 3..])
    ensures DecimalValue(s[..|s| - 4]) == ms / 1000
    ensures DecimalValue(s[|s| - 3..]) == ms % 1000
  {
    var whole := DecimalString(ms / 1000);
    var frac := Pad3(ms % 1000);
    var s := whole + "." + frac;
    DecimalValueOfString(ms / 1000);
    assert s[..|s| - 4] == whole && s[|s| - 3..] == frac;
    s
  }

  /**
   * Reads a "seconds with exactly three decimals" string back as milliseconds:
   * the independent partner of `FormatMillis`.
   */
  function ParseSeconds(s: string): Option<nat> {
    if |s| >= 5 && s[|s| - 4] == '.' && AllDigits(s[..|s| - 4]) && AllDigits(s[|s| - 3..])
    then Some(1000 * DecimalValue(s[..|s| - 4]) + DecimalValue(s[|s| - 3..]))
    else None
  }

  /** `GetSplunkFormattedTime(time)` on the integer-millisecond path. */
  function GetSplunkFormattedTime(t: TimeInput): (s: string)
    ensures ParseSeconds(s) == Some(MillisOf(t))
    ensures s[|s| - 4] == '.' && AllDigits(s[|s| - 3..])
  {
    FormatMillis(MillisOf(t))
  }

  lemma FormatRoundTrip(ms: nat)
    ensures ParseSeconds(FormatMillis(ms)) == Some(ms)
  {
  }

  /** Every canonical three-decimal string is the formatting of the milliseconds it denotes. */
  lemma {:induction false} ParseRoundTrip(s: string)
    requires |s| >= 5 && s[|s| - 4] == '.'
    requires Canonical(s[..|s| - 4]) && AllDigits(s[|s| - 3..])
    ensures ParseSeconds(s).Some? && FormatMillis(ParseSeconds(s).value) == s
  {
    var w := s[..|s| - 4];
    var f := s[|s| - 3..];
    var ms := 1000 * DecimalValue(w) + DecimalValue(f);
    Pad3OfValue(f);
    Thousands(DecimalValue(w), DecimalValue(f));
    StringOfDecimalValue(w);
    assert DecimalString(ms / 1000) == w && Pad3(ms % 1000) == f;
    assert s == w + "." + f;
  }

  /** Whole seconds and milliseconds are read back by division and remainder. */
  lemma Thousands(q: nat, r: nat)
    requires r < 1000
    ensures (1000 * q + r) / 1000 == q && (1000 * q + r) % 1000 == r
  {
  }

  /** Distinct millisecond values format to distinct strings, and order is kept. */
  lemma FormatInjectiveAndMonotone(a: nat, b: nat)
    ensures FormatMillis(a) == FormatMillis(b) <==> a == b
    ensures a <= b <==> ParseSeconds(FormatMillis(a)).value <= ParseSeconds(FormatMillis(b)).value
  {
    FormatRoundTrip(a);
    FormatRoundTrip(b);
  }

  /** The documented example: 1372187084424 ms formats as "1372187084.424". */
  lemma ExampleMillis()
    ensures GetSplunkFormattedTime(Millis(1372187084424)) == "1372187084.424"
    ensures GetSplunkFormattedTime(Date(1372187084424)) == "1372187084.424"
  {
    ExampleFormatted();
  }

  lemma ExampleFormatted()
    ensures FormatMillis(1372187084424) == "1372187084.424"
  {
    ExampleSplit();
    ExampleWholeSeconds();
    ExampleFraction();
    ExampleLiteral();
  }

  lemma ExampleLiteral()
    ensures "1372187084" + "." + "424" == "1372187084.424"
  {
  }

  lemma ExampleSplit()
    ensures FormatMillis(1372187084424) == DecimalString(1372187084) + "." + Pad3(424)
  {
    Thousands(1372187084, 424);
  }

  lemma ExampleFraction()
    ensures Pad3(424) == "424"
  {
  }

  lemma ExampleWholeSeconds()
    ensures DecimalString(1372187084) == "1372187084"
  {
    assert DecimalString(1) == "1";
    assert DecimalString(13) == "13";
    assert DecimalString(137) == "137";
    assert DecimalString(1372) == "1372";
    assert DecimalString(13721) == "13721";
    assert DecimalString(137218) == "137218";
    assert DecimalString(1372187) == "1372187";
    assert DecimalString(13721870) == "13721870";
    assert DecimalString(137218708) == "137218708";
  }
}

=== FILE: validationdefinition.dfy ===
/** `ValidationDefinition` (validationdefinition.ts): the decoded `<items>` document of validation mode. */
module ValidationDefinition {
  import opened Base
  import opened Definition
  import InputDefinition

  /** The metadata, the validated item's name, and its decoded parameters. */
  datatype ValidationDefinition = ValidationDefinition(metadata: Meta, name: Option<string>, parameters: Stanza)

  /** `new ValidationDefinition()`. */
  function New(): (d: ValidationDefinition)
    ensures d.parameters == map[] && d.name.None?
    ensures d.metadata.checkpointDir.None? && d.metadata.serverHost.None?
    ensures d.metadata.serverUri.None? && d.metadata.sessionKey.None?
  {
    ValidationDefinition(EmptyMeta, None, map[])
  }

  /** `ValidationDefinition.parse`: metadata cloned, `name` from the item, parameters decoded. */
  function Parse(x: ItemsXml): (d: ValidationDefinition)
    ensures d.metadata.checkpointDir == x.checkpointDir && d.metadata.serverHost == x.serverHost
    ensures d.metadata.serverUri == x.serverUri && d.metadata.sessionKey == x.sessionKey
    ensures d.name == Some(x.item.name)
    ensures d.parameters.Keys == ParamNames(x.item) + ListNames(x.item)
  {
    ValidationDefinition(CloneMeta(x), Some(x.item.name), DecodeStanza(x.item))
  }

  /**
   * A validation request is a bundle of exactly one instance: the `<item>` decodes as
   * the same `<stanza>` would in an `<input>` document with the same metadata.
   */
  lemma ValidationIsSingleInstanceBundle(x: ItemsXml)
    ensures var b := InputDefinition.Parse(InputXml(x.checkpointDir, x.serverHost, x.serverUri, x.sessionKey, Lone(x.item)));
      && b.metadata == Parse(x).metadata
      && b.inputs == map[x.item.name := Parse(x).parameters]
  {
    assert IsLast([x.item], StanzaName, 0);
  }
}

=== FILE: xml_stream.dfy ===
/** The `XmlStream` class (utils/xml_stream.ts): the object-based runner's input and output. */
module XmlStream {
  import opened Base
  import opened JsObject
  import Text

  /** One `writeString` on the output stream, kept with what produced it. */
  datatype Chunk =
    | OpenTag(tag: string, attrs: string) // `attrs == ""` when no attributes are written
    | CloseTag(tag: string)
    | ObjectXml(text: string)

  /** The characters a chunk puts on the stream. */
  function ChunkText(c: Chunk): string {
    match c
    case OpenTag(tag, attrs) => "<" + tag + (if attrs != "" then " " + attrs else "") + ">"
    case CloseTag(tag) => "</" + tag + ">"
    case ObjectXml(text) => text
  }

  /** The serializer; `None` where it throws. */
  type Serializer = JVal -> Option<string>

  /** The stack of open tags and everything written so far. */
  datatype Stream = Stream(tags: seq<string>, out: seq<Chunk>)

  function New(): (s: Stream)
    ensures s.tags == [] && s.out == []
  {
    Stream([], [])
  }

  /** `open(tag, attrs)`: pushes the tag and writes the start tag; falsy attributes are not written. */
  function Open(s: Stream, tag: string, attrs: Option<string>): (r: Stream)
    ensures r.tags == s.tags + [tag]
    ensures |r.out| == |s.out| + 1 && r.out[..|s.out|] == s.out
    ensures r.out[|s.out|].OpenTag? && r.out[|s.out|].tag == tag
    ensures ChunkText(r.out[|s.out|]) ==
      if attrs.Some? && attrs.value != "" then "<" + tag + " " + attrs.value + ">" else "<" + tag + ">"
  {
    var written := match attrs case Some(a) => a case None => "";
    Stream(s.tags + [tag], s.out + [OpenTag(tag, written)])
  }

  /**
   * `close(tag)`: without a tag, pops the innermost open tag and writes its end tag,
   * failing with "Nothing to close" on an empty stack; with a tag, writes that end tag
   * and leaves the stack as it is.
   */
  function Close(s: Stream, tag: Option<string>): (r: Result<Stream>)
    ensures r.Err? <==> tag.None? && s.tags == []
    ensures r.Err? ==> r.message == "Nothing to close"
    ensures tag.Some? ==> r == Ok(Stream(s.tags, s.out + [CloseTag(tag.value)]))
    ensures tag.None? && r.Ok? ==>
      && |s.tags| > 0
      && r.value.tags == s.tags[..|s.tags| - 1]
      && r.value.out == s.out + [CloseTag(s.tags[|s.tags| - 1])]
  {
    match tag
    case Some(t) => Ok(s.(out := s.out + [CloseTag(t)]))
    case None =>
      if s.tags == [] then Err("Nothing to close")
      else Ok(Stream(s.tags[..|s.tags| - 1], s.out + [CloseTag(s.tags[|s.tags| - 1])]))
  }

  /** `writeObject(obj)`: the serialised object; a serializer failure is rethrown. */
  function WriteObject(s: Stream, obj: JVal, serialize: Serializer): (r: Result<Stream>)
    ensures r.Ok? <==> serialize(obj).Some?
    ensures r.Ok? ==> r.value == Stream(s.tags, s.out + [ObjectXml(serialize(obj).value)])
  {
    match serialize(obj)
    case Some(text) => Ok(s.(out := s.out + [ObjectXml(text)]))
    case None => Err("serialization error")
  }

  /**
   * Replays written chunks against a stack of open elements: `None` when an end tag
   * does not match the innermost open element, else the elements left open.
   */
  function Replay(out: seq<Chunk>): Option<seq<string>>
    decreases |out|
  {
    if out == [] then Some([])
    else
      match Replay(out[..|out| - 1])
      case None => None
      case Some(open) =>
        match out[|out| - 1]
        case OpenTag(t, _) => Some(open + [t])
        case CloseTag(t) =>
          if open != [] && open[|open| - 1] == t then Some(open[..|open| - 1]) else None
        case ObjectXml(_) => Some(open)
  }

  /** The output is properly nested and the tag stack is exactly the set of elements left open. */
  ghost predicate WellNested(s: Stream) {
    Replay(s.out) == Some(s.tags)
  }

  lemma ReplaySnoc(out: seq<Chunk>, c: Chunk)
    ensures Replay(out + [c]) ==
      match Replay(out)
      case None => None
      case Some(open) =>
        match c
        case OpenTag(t, _) => Some(open + [t])
        case CloseTag(t) => if open != [] && open[|open| - 1] == t then Some(open[..|open| - 1]) else None
        case ObjectXml(_) => Some(open)
  {
    assert (out + [c])[..|out|] == out;
  }

  /**
   * Opening, closing the innermost element and writing objects keep the output nested
   * and the stack in step with it.
   */
  lemma {:induction false} OperationsKeepNesting(s: Stream, tag: string, attrs: Option<string>, obj: JVal, serialize: Serializer)
    requires WellNested(s)
    ensures WellNested(Open(s, tag, attrs))
    ensures Close(s, None).Ok? ==> WellNested(Close(s, None).value)
    ensures WriteObject(s, obj, serialize).Ok? ==> WellNested(WriteObject(s, obj, serialize).value)
  {
    OpenKeepsNesting(s, tag, attrs);
    CloseKeepsNesting(s);
    WriteKeepsNesting(s, obj, serialize);
  }

  lemma OpenKeepsNesting(s: Stream, tag: string, attrs: Option<string>)
    requires WellNested(s)
    ensures WellNested(Open(s, tag, attrs))
  {
    ReplaySnoc(s.out, Open(s, tag, attrs).out[|s.out|]);
    assert Open(s, tag, attrs).out == s.out + [Open(s, tag, attrs).out[|s.out|]];
  }

  lemma CloseKeepsNesting(s: Stream)
    requires WellNested(s)
    ensures Close(s, None).Ok? ==> WellNested(Close(s, None).value)
  {
    if s.tags != [] {
      ReplaySnoc(s.out, CloseTag(s.tags[|s.tags| - 1]));
    }
  }

  lemma WriteKeepsNesting(s: Stream, obj: JVal, serialize: Serializer)
    requires WellNested(s)
    ensures WriteObject(s, obj, serialize).Ok? ==> WellNested(WriteObject(s, obj, serialize).value)
  {
    if serialize(obj).Some? {
      ReplaySnoc(s.out, ObjectXml(serialize(obj).value));
    }
  }

  /**
   * `close` with an explicit tag does not pop: closing "stream" by name and then
   * closing the innermost element writes "</stream>" twice.
   */
  lemma ExplicitCloseDoesNotPop()
    ensures var s := Open(New(), "stream", None);
      && Close(s, Some("stream")).Ok?
      && Close(Close(s, Some("stream")).value, None).Ok?
      && Close(Close(s, Some("stream")).value, None).value.out ==
           [OpenTag("stream", ""), CloseTag("stream"), CloseTag("stream")]
      && !WellNested(Close(s, Some("stream")).value)
  {
    var s := Open(New(), "stream", None);
    var c := Close(s, Some("stream")).value;
    ReplaySnoc([], OpenTag("stream", ""));
    ReplaySnoc([OpenTag("stream", "")], CloseTag("stream"));
    assert [OpenTag("stream", "")] + [CloseTag("stream")] == c.out;
  }

  /** The text received so far. */
  function Concat(chunks: seq<string>): string
    decreases |chunks|
  {
    if chunks == [] then "" else Concat(chunks[..|chunks| - 1]) + chunks[|chunks| - 1]
  }

  /** One more chunk extends the received text. */
  lemma ConcatStep(chunks: seq<string>, i: nat)
    requires i < |chunks|
    ensures Concat(chunks[..i + 1]) == Concat(chunks[..i]) + chunks[i]
  {
    assert chunks[..i + 1][..i] == chunks[..i];
  }

  /** Whether the received text, trimmed, ends with the end tag of the awaited element. */
  predicate Complete(data: string, tag: string) {
    Text.EndsWith(Text.Trim(data), "</" + tag + ">")
  }

  /** Whether the first `k` chunks complete the element. */
  predicate CompleteAt(chunks: seq<string>, tag: string, k: nat)
    requires k <= |chunks|
  {
    Complete(Concat(chunks[..k]), tag)
  }

  /** The rejection when the deadline passes first. */
  function TimeoutMessage(tag: string): string {
    "Receiving " + tag + " object."
  }

  /**
   * The `data` handler of `readObject`: appends each chunk to the text received so
   * far and stops at the first text of which `done` holds.
   */
  method ReadUntil(chunks: seq<string>, done: string -> bool) returns (found: bool, used: nat)
    ensures used <= |chunks|
    ensures found ==> 1 <= used && done(Concat(chunks[..used]))
    ensures forall k :: 1 <= k <= |chunks| && (!found || k < used) ==> !done(Concat(chunks[..k]))
    ensures !found ==> used == |chunks|
  {
    var data := "";
    var i := 0;
    while i < |chunks|
      invariant 0 <= i <= |chunks|
      invariant data == Concat(chunks[..i])
      invariant forall k :: 1 <= k <= i ==> !done(Concat(chunks[..k]))
    {
      ConcatStep(chunks, i);
      data := data + chunks[i];
      i := i + 1;
      if done(data) {
        return true, i;
      }
    }
    return false, i;
  }

  /**
   * `readObject(tag)` over the chunks that arrive before the deadline: after each chunk
   * the whole text is trimmed and checked for the end tag; the first complete text is
   * handed to the parser. If no chunk completes it, the deadline rejects.
   */
  method ReadObject(chunks: seq<string>, tag: string) returns (r: Result<string>, used: nat)
    ensures used <= |chunks|
    ensures r.Ok? ==>
      && 1 <= used
      && CompleteAt(chunks, tag, used)
      && r.value == Text.Trim(Concat(chunks[..used]))
    ensures forall k :: 1 <= k <= |chunks| && (r.Err? || k < used) ==> !CompleteAt(chunks, tag, k)
    ensures r.Err? ==> r.message == TimeoutMessage(tag) && used == |chunks|
  {
    var found;
    found, used := ReadUntil(chunks, data => Complete(data, tag));
    if found {
      r := Ok(Text.Trim(Concat(chunks[..used])));
    } else {
      r := Err(TimeoutMessage(tag));
    }
  }
}
